=== FILE: README.md ===
# Audient analyze route, modelled in Dafny

Audient's analyze endpoint (`POST /api/analyze`) takes a piece of media and answers with a transcript and an analysis of it. The media is an uploaded file, a local path or a URL. The endpoint:

- classifies the file as audio or video;
- for a video, extracts the audio track with ffmpeg when a binary is available;
- sends the audio to Gemini for transcription, then the English text for analysis;
- reads both model replies with a tolerant JSON extractor and fills in missing fields;
- writes the raw transcript, the English transcript and a text report into a per-media output directory;
- answers with the results, or with an error whose HTTP status is chosen from the error message.

This project models that handler and the functions it calls. The modules follow the structure of the handler:

| module | file | what it models |
|---|---|---|
| `JsStrings` | `js_strings.dfy` | the JavaScript string built-ins the route uses (`trim`, `indexOf`, `lastIndexOf`, `includes`, `slice`, ASCII `toLowerCase`, the `[-\s]` replacement) |
| `JsValues` | `js_values.dfy` | parsed JSON values, truthiness, logical-or and nullish defaults, property reads, `Object.entries`, `?.length` |
| `Paths` | `paths.dfy` | POSIX `path.basename`, `path.extname`, `path.parse(..).name`, `path.join` |
| `Media` | `media.dfy` | `detectFileType`, `ffmpegPath`, `extractAudioFromVideo`, `processMediaFile`, the output-directory name |
| `JsonExtract` | `json_extract.dfy` | `safeJsonParse` and its three candidate texts |
| `Transcription` | `transcription.dfy` | the normalisation of the transcription reply |
| `Analysis` | `analysis.dfy` | the truncation of the text sent for analysis and the defaulting of the analysis reply |
| `Sorting` | `sorting.dfy` | the stable descending sort of score entries |
| `AnalysisReport` | `report.dfy` | the report's lines, built by `push` as the source does |
| `Pipeline` | `pipeline.dfy` | the `POST` handler: media resolution, the sequence of steps, the file-system effects and the error-to-status mapping |

Everything the handler gets from outside is a parameter. This covers:

- the environment: keys, model name and ffmpeg override;
- the content-type table and the ffmpeg process;
- `path.resolve`, the URL download and `JSON.parse`;
- the text of each Gemini reply, or the message of the error its call throws;
- `Number(..)` of a score, used as the sort key.

File-system changes are recorded, in order, as a list of effects. Pure steps are functions. The steps the source writes imperatively are methods proved equal to those functions:

- the reassignment of `textToAnalyze`;
- the `push`es that build the report;
- `POST`'s mutable locals and its sequence of awaited steps.

## Model

| member | source | states |
|---|---|---|
| `JsStrings.Trim` | src/app/api/analyze/route.ts:120 | the result has no space at either end, is no longer than the input, and a string already trimmed is returned unchanged |
| `JsStrings.TrimBounds` | src/app/api/analyze/route.ts:120 | the trimmed text is a slice of the input and everything cut off on either side is space |
| `JsStrings.TrimOfPadded` | src/app/api/analyze/route.ts:132 | a non-empty trimmed text surrounded only by spaces trims back to itself |
| `JsStrings.IndexOf` | src/app/api/analyze/route.ts:126 | -1 exactly when the pattern never occurs; otherwise an occurrence with none before it |
| `JsStrings.IndexOfFrom` | src/app/api/analyze/route.ts:129 | the first occurrence at or after the start position, or -1 when there is none from there on |
| `JsStrings.LastIndexOf` | src/app/api/analyze/route.ts:139 | -1 exactly when the character is absent; otherwise its last position |
| `JsStrings.Includes` | src/app/api/analyze/route.ts:583-587 | true exactly when some occurrence of the pattern exists |
| `JsStrings.Prefix` | src/app/api/analyze/route.ts:356 | the first n characters, or the whole text when it is shorter |
| `JsStrings.ToLower` | src/app/api/analyze/route.ts:47 | same length, every character mapped by the ASCII lower-case map |
| `JsStrings.ToLowerNoUpper` | src/app/api/analyze/route.ts:324-326 | lower-casing leaves no upper-case letter and leaves a text without one unchanged |
| `JsStrings.ReplaceDashesAndSpaces` | src/app/api/analyze/route.ts:112 | every hyphen and white-space character becomes `_`, every other character is kept, and none of the former remain |
| `JsStrings.ReplaceDashesAndSpacesIdempotent` | src/app/api/analyze/route.ts:112 | applying the replacement again changes nothing |
| `JsValues.Or` | src/app/api/analyze/route.ts:324 | the logical-or default is `x` when it is truthy and `d` otherwise |
| `JsValues.Coalesce` | src/app/api/analyze/route.ts:380 | `x ?? d` is `d` only for a missing or `null` value |
| `JsValues.CoalesceKeepsFalsy` | src/app/api/analyze/route.ts:327 | nullish coalescing keeps a present falsy value that logical-or would replace |
| `JsValues.Member` | src/app/api/analyze/route.ts:324 | the value of the member with that name, present exactly when some member has the name; of several, the last one, as `JSON.parse` keeps |
| `JsValues.MemberOfLastName` | src/app/api/analyze/route.ts:324 | a member with no later member of the same name is the one read |
| `JsValues.Entries` | src/app/api/analyze/route.ts:413 | an object's members in order; an array's items or a string's characters keyed by index; nothing for a number or boolean |
| `JsValues.DecimalString` | src/app/api/analyze/route.ts:508 | only digits, no leading zero, and they denote the number written |
| `JsValues.HasLengthCases` | src/app/api/analyze/route.ts:441 | `v?.length` is truthy for an array or string exactly when it is non-empty, and never for `null`, a number or a boolean |
| `Paths.Basename` | src/app/api/analyze/route.ts:508 | the last path component, which holds no slash |
| `Paths.Extname` | src/app/api/analyze/route.ts:47 | empty, or a `.` followed by characters that are not `.`; empty exactly when the basename has no `.` after its first character or is `..` |
| `Paths.ParseName` | src/app/api/analyze/route.ts:112 | the stem followed by the extension is the basename |
| `Paths.ExtnameOfSuffix` | src/app/api/analyze/route.ts:47 | a name ending in a well-formed extension has that extension, and its stem is the basename of the rest |
| `Paths.BasenameAppend` | src/app/api/analyze/route.ts:508 | appending a piece without slashes to a name extends its basename by that piece |
| `Media.DetectFileType` | src/app/api/analyze/route.ts:46-56 | a listed audio extension gives audio and a listed video extension video; unknown exactly when the extension is not listed and the content type starts with neither `audio/` nor `video/` |
| `Media.LowerExtOfListed` | src/app/api/analyze/route.ts:47 | the lower-cased extension of a name ending in a listed extension, in any letter case, is that extension in lower case |
| `Media.ExtensionDecidesFirst` | src/app/api/analyze/route.ts:46-49 | a listed extension decides the type whatever the content-type table says |
| `Media.ContentTypeDecidesOtherwise` | src/app/api/analyze/route.ts:50-55 | otherwise an `audio/` prefix gives audio, else a `video/` prefix gives video, else the type is unknown (each an if-and-only-if) |
| `Media.ListedExtensionAnyCase` | src/app/api/analyze/route.ts:47-49 | a listed extension in any letter case classifies the file as audio or as video, by its set |
| `Media.ListedExtensionShape` | src/app/api/analyze/route.ts:12-30 | every listed extension is a `.` and at least one further character that is neither `.` nor `/` |
| `Media.VideoExtensionNotAudio` | src/app/api/analyze/route.ts:12-30 | the two extension sets are disjoint |
| `Media.FfmpegPath` | src/app/api/analyze/route.ts:69-74 | a non-blank override wins and is returned untrimmed; otherwise the bundled binary; no transcoder exactly when neither is set |
| `Media.BlankOverrideIgnored` | src/app/api/analyze/route.ts:70 | an override made only of white space is ignored |
| `Media.FfmpegArgs` | src/app/api/analyze/route.ts:90-102 | eleven arguments: overwrite, `-i` and the video, no picture, and the output file in ninth place |
| `Media.ExtractAudioFromVideo` | src/app/api/analyze/route.ts:76-107 | without a binary the video path itself comes back; with one the result is the fixed file in the output directory, and it fails exactly when the ffmpeg run fails |
| `Media.MimeOrDefault` | src/app/api/analyze/route.ts:160 | the table's content type when it gives a non-empty one, and `audio/mpeg` when it gives none or an empty one |
| `Media.ProcessMediaFile` | src/app/api/analyze/route.ts:152-170 | the content type sent is the looked-up type of the file actually sent (the extracted audio for a transcoded video), or `audio/mpeg` when the lookup gives none, so it is never empty; a known type fails only when a video's extraction fails |
| `Media.AudioSentAsIs` | src/app/api/analyze/route.ts:163-166 | an audio file is sent with its own path |
| `Media.VideoWithoutTranscoderSentAsIs` | src/app/api/analyze/route.ts:81-85 | a video with no ffmpeg is sent with its own path |
| `Media.UnknownIsRefused` | src/app/api/analyze/route.ts:167-169 | an unclassifiable file fails with a message starting "Unsupported file type" |
| `Media.UnsupportedMessage` | src/app/api/analyze/route.ts:167-169 | the thrown message starts with "Unsupported file type" and goes on past it |
| `Media.OutputDirName` | src/app/api/analyze/route.ts:112 | the stem with each hyphen and white-space character replaced by `_` and every other character kept; so it holds no hyphen and no white space |
| `Media.OutputDirNameStable` | src/app/api/analyze/route.ts:112 | applying the replacement to the directory name again changes nothing |
| `JsonExtract.FencedCandidate` | src/app/api/analyze/route.ts:126-134 | none when the reply holds no fence; any candidate it gives is trimmed and shorter than the reply less one fence |
| `JsonExtract.FencedCandidateOfFences` | src/app/api/analyze/route.ts:126-130 | a first fence and the next fence starting after it ends, with a gap between them, always give the trimmed text of the gap |
| `JsonExtract.FencedCandidateBetweenFences` | src/app/api/analyze/route.ts:126-132 | the fence candidate is the trimmed text strictly between the first fence and the first fence starting after it ends |
| `JsonExtract.BracedCandidate` | src/app/api/analyze/route.ts:138-142 | the brace candidate starts with `{` and ends with `}` |
| `JsonExtract.BracedCandidateSpan` | src/app/api/analyze/route.ts:138-142 | the brace candidate runs from the first `{` to the last `}`, which comes after it |
| `JsonExtract.SafeJsonParse` | src/app/api/analyze/route.ts:119-150 | text whose trimmed form parses is returned as parsed; else the fence candidate's parse when it has one; else the brace candidate's parse when it has one; else `{}` |
| `JsonExtract.SafeJsonParseSound` | src/app/api/analyze/route.ts:119-150 | every result is `{}` or the parse of a trimmed slice of the trimmed reply |
| `JsonExtract.NoFenceWithoutBacktick` | src/app/api/analyze/route.ts:126-127 | a reply without a backtick has no fence candidate |
| `JsonExtract.PlainProseGivesEmptyObject` | src/app/api/analyze/route.ts:146-149 | prose with no backtick and no `{` that does not parse gives `{}` |
| `JsonExtract.ProseWrappedObjectRecovered` | src/app/api/analyze/route.ts:137-144 | an object wrapped in prose is recovered by the brace step |
| `JsonExtract.BracedAround` | src/app/api/analyze/route.ts:138-142 | with no `{` before an object and no `}` after it, the brace candidate is the object |
| `JsonExtract.FencedJsonRecoveredByBraces` | src/app/api/analyze/route.ts:125-144 | a reply of prose without backticks or `{` followed by one fenced `json` block holding an object is read by the brace step, giving that object's parse or `{}` |
| `JsonExtract.FenceOfTaggedBlock` | src/app/api/analyze/route.ts:125-134 | the fence candidate of prose followed by a fenced `json` block keeps the `json` tag line |
| `JsonExtract.FenceOfBlock` | src/app/api/analyze/route.ts:126-132 | the fence candidate of prose followed by one fenced block is the block's trimmed content |
| `Transcription.OrTrim` | src/app/api/analyze/route.ts:324-331 | trimming `x`, defaulted by logical-or to `d`, fails exactly when `x` is truthy and not a string; otherwise it is the trimmed value or the trimmed default |
| `Transcription.NormalizeTranscription` | src/app/api/analyze/route.ts:322-331 | a `null` reply throws on the first read; the reply is accepted exactly when all three text fields can be trimmed (up to the coercions listed under Left out); the texts come out trimmed, the language code also lower case, the confidence never `null` |
| `Transcription.TranslationFallsBackToRaw` | src/app/api/analyze/route.ts:329-331 | a missing or empty English text is replaced by the original-language text |
| `Transcription.LanguageDefaultsToEnglish` | src/app/api/analyze/route.ts:324-326 | a missing or empty language code reads as "en" |
| `Transcription.DefaultLanguageNormal` | src/app/api/analyze/route.ts:324-326 | "en" is already trimmed and lower case |
| `Transcription.ConfidenceDefaultsOnlyWhenMissing` | src/app/api/analyze/route.ts:327 | the confidence is 0.95 only when it is missing or `null`; any other value is kept |
| `Transcription.StringFieldsKept` | src/app/api/analyze/route.ts:324-331 | non-empty string fields are kept, trimmed, and the language code is lower-cased |
| `Transcription.LanguageKept` | src/app/api/analyze/route.ts:324-326 | a non-empty language code is kept, trimmed and lower-cased, whatever the other fields hold |
| `Transcription.RawKept` | src/app/api/analyze/route.ts:328 | a non-empty original-language text is kept, trimmed |
| `Transcription.RawDefaultsToEmpty` | src/app/api/analyze/route.ts:328 | a missing or falsy original-language text reads as the empty string |
| `Transcription.TranslatedKept` | src/app/api/analyze/route.ts:329-331 | a non-empty English text is kept, trimmed, whatever the original-language text is |
| `Transcription.EmptyReplyDefaults` | src/app/api/analyze/route.ts:322-331 | `{}` normalises to "en", 0.95 and two empty texts |
| `Transcription.NonStringTextThrows` | src/app/api/analyze/route.ts:324-331 | a truthy text field that is not a string makes the normalisation throw |
| `Analysis.AnalysisText` | src/app/api/analyze/route.ts:356-361 | a prefix of the input of at most 12000 characters; a short input is unchanged; a long one ends just after a period beyond index 8000 with no later period in the window, or is exactly 12000 characters when there is none such (if-and-only-if) |
| `Analysis.PrepareAnalysisText` | src/app/api/analyze/route.ts:356-361 | the method's reassignments give the same text as `AnalysisText` |
| `Analysis.CutAfterLastPeriod` | src/app/api/analyze/route.ts:357-360 | a long text whose last period in the window is beyond 8000 is cut just after it |
| `Analysis.NoLatePeriodKeepsWindow` | src/app/api/analyze/route.ts:356-361 | a long text with no period beyond 8000 in the window keeps exactly the first 12000 characters |
| `Analysis.DefaultSummary` | src/app/api/analyze/route.ts:394 | the first 300 characters of the analysed text, or all of it when shorter, followed by "..."; its length is that count plus three |
| `Analysis.NormalizeAnalysis` | src/app/api/analyze/route.ts:379-397 | throws for a `null` reply and for no other (up to the coercions listed under Left out); otherwise no field the report reads is `null` |
| `Analysis.DefaultAnalysis` | src/app/api/analyze/route.ts:379-397 | `null` emotion and intent, `{}` score maps, empty lists, zero confidences, "neutral", "unknown", the 0.33/0.34/0.33 breakdown and the summary cut from the analysed text |
| `Analysis.UnusableReplyGivesDefaults` | src/app/api/analyze/route.ts:379-397 | a reply that is not an object gives the all-default analysis |
| `Analysis.EmptyReplyGivesDefaults` | src/app/api/analyze/route.ts:379-397 | `{}` gives the all-default analysis |
| `Analysis.OnlyMissingFieldsReplaced` | src/app/api/analyze/route.ts:379-397 | for each of the thirteen fields: the reply's member when it is present and not `null`, even when falsy; the field's default otherwise |
| `Analysis.MissingSummaryFromText` | src/app/api/analyze/route.ts:394 | a missing or `null` summary is the default summary: the first 300 characters of the analysed text, or all of it, followed by "..." |
| `Sorting.SortByScore` | src/app/api/analyze/route.ts:413-414 | a permutation of the entries, in non-increasing score order, with ties in their original order |
| `Sorting.InsertCorrect` | src/app/api/analyze/route.ts:414 | inserting into a sorted list keeps it sorted and adds exactly the new entry |
| `Sorting.SortedPrefixCorrect` | src/app/api/analyze/route.ts:414 | sorting a prefix by insertion gives a sorted permutation of it |
| `Sorting.SortedPrefixStable` | src/app/api/analyze/route.ts:414 | sorting by insertion keeps every score class in its original order |
| `Sorting.InsertStable` | src/app/api/analyze/route.ts:414 | an insertion adds the entry at the end of its own score class and leaves the other classes alone |
| `AnalysisReport.Repeat` | src/app/api/analyze/route.ts:401 | `c.repeat(n)` is n copies of c |
| `AnalysisReport.ScoreLines` | src/app/api/analyze/route.ts:415-417 | one score line per entry, in the given order |
| `AnalysisReport.Header` | src/app/api/analyze/route.ts:401-403 | four lines: a rule of 70 `=`, the title, the same rule, a blank line |
| `AnalysisReport.EmotionSection` | src/app/api/analyze/route.ts:404-417 | the heading, the dominant-emotion line, and the score lines after "Emotion Scores:" |
| `AnalysisReport.SentimentSection` | src/app/api/analyze/route.ts:419-432 | two blank lines, the heading, the overall-sentiment line, and the breakdown's lines after "Sentiment Breakdown:" |
| `AnalysisReport.IntentSection` | src/app/api/analyze/route.ts:434-449 | the heading, the primary-intent line, the secondary-intents line only when there is a list, and the score lines after "Intent Scores:" |
| `AnalysisReport.SummarySection` | src/app/api/analyze/route.ts:451-460 | the heading, the content-type line, the summary, and the key-topics line only when there is a list |
| `AnalysisReport.EntriesOf` | src/app/api/analyze/route.ts:413 | `Object.entries` throws exactly for `null` |
| `AnalysisReport.ListToJoin` | src/app/api/analyze/route.ts:441-443 | no line when the length is falsy; a non-empty array's items otherwise; a TypeError exactly for a truthy length on a non-array |
| `AnalysisReport.Report` | src/app/api/analyze/route.ts:399-460 | the report throws exactly when a score map is `null` or a joined list is not an array (up to the coercions listed under Left out) |
| `AnalysisReport.PushScoreLines` | src/app/api/analyze/route.ts:413-417 | the `forEach` appends exactly the score lines of the entries |
| `AnalysisReport.BuildReport` | src/app/api/analyze/route.ts:399-460 | the sequence of `push` calls gives the same lines, and throws at the same point, as `Report` |
| `AnalysisReport.PushEmotionSection` | src/app/api/analyze/route.ts:404-417 | appends the emotion section |
| `AnalysisReport.PushSentimentSection` | src/app/api/analyze/route.ts:419-432 | appends the sentiment section |
| `AnalysisReport.PushIntentSection` | src/app/api/analyze/route.ts:434-449 | appends the intent section, with the secondary-intents line only when there is a list |
| `AnalysisReport.PushSummarySection` | src/app/api/analyze/route.ts:451-460 | appends the summary section, with the key-topics line only when there is a list |
| `AnalysisReport.EmotionParts` | src/app/api/analyze/route.ts:401-460 | a report that does not throw is the header, the emotion section, and a rest opening with a blank line |
| `AnalysisReport.EmotionListedIn` | src/app/api/analyze/route.ts:412-419 | after the header and an emotion section, the emotion scores follow their caption and precede the next blank line |
| `AnalysisReport.ListedBefore` | src/app/api/analyze/route.ts:412-419 | score lines that end a section after their caption are followed by the blank line that opens the next section |
| `AnalysisReport.ReportParts` | src/app/api/analyze/route.ts:399-460 | a report that does not throw is the leading sections followed by the intent and summary sections |
| `AnalysisReport.SectionsInOrder` | src/app/api/analyze/route.ts:401-453 | the report opens with the title banner, and the emotion, sentiment, intent and summary headings follow in that order, each underlined by a rule |
| `AnalysisReport.Layout` | src/app/api/analyze/route.ts:401-453 | the positions of the banner, headings and rules in a header followed by four sections |
| `AnalysisReport.EmotionScoresListed` | src/app/api/analyze/route.ts:412-419 | under "Emotion Scores:" there is one line per map entry, in non-increasing score order, followed by a blank line; an empty map lists nothing |
| `AnalysisReport.IntentScoresListed` | src/app/api/analyze/route.ts:444-451 | the intent scores are listed the same way under "Intent Scores:" |
| `AnalysisReport.OptionalListLines` | src/app/api/analyze/route.ts:441-460 | exactly one "Secondary Intents:" line when that list has a truthy length, none otherwise; likewise for "Key Topics:" |
| `AnalysisReport.MissingEmotionScoresListNothing` | src/app/api/analyze/route.ts:381-417 | a reply lacking only its emotion scores gets `{}` for them, and "Emotion Scores:" is followed directly by a blank line |
| `AnalysisReport.DefaultedReportThrowsOnlyOnLists` | src/app/api/analyze/route.ts:379-460 | once the analysis is defaulted, the report throws only for a list with a truthy length that is not an array |
| `Pipeline.ModelName` | src/app/api/analyze/route.ts:32 | the environment's model name unless it is unset or empty, then "gemini-2.0-flash-exp"; never empty |
| `Pipeline.ErrorText` | src/app/api/analyze/route.ts:581 | the error's message when it is not empty; never empty |
| `Pipeline.StatusFor` | src/app/api/analyze/route.ts:583-587 | 400 exactly when the message includes "Unsupported file type", else 404 exactly when it includes "not found", else 500 |
| `Pipeline.Fail` | src/app/api/analyze/route.ts:580-591 | an error reply with status 400, 404 or 500 and a non-empty message |
| `Pipeline.UnsupportedStatus` | src/app/api/analyze/route.ts:583-584 | the unsupported-file message is answered with 400 |
| `Pipeline.LacksExcludes` | src/app/api/analyze/route.ts:583-587 | a text cannot include a pattern holding a character the text lacks |
| `Pipeline.MissingKeyLetters` | src/app/api/analyze/route.ts:264-266 | the missing-key message holds neither `U` nor `d` |
| `Pipeline.MissingKeyStatus` | src/app/api/analyze/route.ts:583-587 | the missing-key message is answered with 500 |
| `Pipeline.ParseReply` | src/app/api/analyze/route.ts:322 | a non-empty reply is parsed as it is; an empty one is parsed as "{}" |
| `Pipeline.EmptyReplyIsEmptyObject` | src/app/api/analyze/route.ts:322 | an empty reply is read as `{}` |
| `Pipeline.Transcribe` | src/app/api/analyze/route.ts:282-331 | without a key it fails with the missing-key message before any call; a failed call passes its message on; a success is the normalisation of the parsed reply, with trimmed texts |
| `Pipeline.Analyze` | src/app/api/analyze/route.ts:354-461 | without a key it fails with the missing-key message; the reply is requested for the truncated text `AnalysisText(english)`, and a failed call passes its message on; a success is the defaulting of that parsed reply against the truncated text, and its report renders without throwing |
| `Pipeline.ResolveMedia` | src/app/api/analyze/route.ts:484-525 | an upload is refused exactly when it has no file or no name; a JSON body is refused exactly when neither `media_path` nor `media_url` is truthy; an upload is used with its saved path and its own name |
| `Pipeline.TranscoderRuns` | src/app/api/analyze/route.ts:86-103 | ffmpeg runs exactly for a video when a binary is available, with the extraction arguments |
| `Pipeline.Process` | src/app/api/analyze/route.ts:527-538 | every error reply has status 400, 404 or 500 |
| `Pipeline.AfterProcessing` | src/app/api/analyze/route.ts:530-538 | a failed transcription writes nothing and is answered from its message |
| `Pipeline.AfterTranscription` | src/app/api/analyze/route.ts:535-574 | a failed analysis writes nothing; a successful one writes the report last, and the reply carries the transcript, the processed audio path and the three artefact paths in the output directory |
| `Pipeline.Handle` | src/app/api/analyze/route.ts:480-593 | a request without media is answered with 400 after only the base directories are made; a failed resolution or download is answered from its message; resolved media go on to `Process` after the base directories; every error status is 400, 404 or 500 |
| `Pipeline.Post` | src/app/api/analyze/route.ts:480-593 | the handler with its mutable locals and early returns gives the same outcome as `Handle` |
| `Pipeline.ProcessStep` | src/app/api/analyze/route.ts:527-528 | the output directory and media processing steps give the same outcome as `Process` |
| `Pipeline.TranscribeStep` | src/app/api/analyze/route.ts:530-534 | the transcription step and its two writes give the same outcome as `AfterProcessing` |
| `Pipeline.AnalyzeStep` | src/app/api/analyze/route.ts:535-579 | the analysis step, its write and the success reply give the same outcome as `AfterTranscription` |
| `Pipeline.UnsupportedFileRefused` | src/app/api/analyze/route.ts:527-528 | a file that is neither audio nor video is answered with 400 after only the directories are made |
| `Pipeline.MissingKeyRefused` | src/app/api/analyze/route.ts:261-267 | without an API key, media that could be prepared is answered with 500 and the key message, and no transcript or report is written |
| `Pipeline.ProcessedAudioPath` | src/app/api/analyze/route.ts:152-166 | the audio sent is the extracted track for a video with a binary, and the input itself otherwise |
| `Pipeline.SuccessAfterProcessing` | src/app/api/analyze/route.ts:333-336 | after the audio is prepared, a successful run appends exactly the raw transcript, the English transcript and the rendered report, in that order |
| `Pipeline.ProcessedThenTranscribed` | src/app/api/analyze/route.ts:527-534 | a run that gets past the media processing continues with the processed audio, on the log of the preparation |
| `Pipeline.SuccessfulRun` | src/app/api/analyze/route.ts:527-574 | a successful run ends with those three writes in the output directory; the report holds the lines rendered from the reply's analysis; the processed audio is as `ProcessedAudioPath` says |
| `Pipeline.OutputDir` | src/app/api/analyze/route.ts:109-113 | the output base, a slash, then a name holding no hyphen and no white space |
| `Pipeline.OutputDirShape` | src/app/api/analyze/route.ts:109-113 | the output directory is the output base joined with a name holding no hyphen and no white space |

## Left out

- `Number(..)` coercion of confidences and scores, and NaN: confidences are kept as the JSON value before coercion, and a score's number is the parameter `score`.
- `toFixed`, `String(..)` and `toUpperCase` in the report's value lines: those lines are kept symbolic (the value and its label), so the percentage text is not modelled.
- `toLowerCase` is modelled for ASCII letters only; other scripts' case mapping is not.
- Strings are sequences of characters, so UTF-16 surrogate pairs in `slice` and `length` are not modelled.
- Objects keep their members in source order. JavaScript's reordering of integer-like keys in `Object.entries` is not modelled.
- `Paths.Join`: `path.join` is modelled as `dir + "/" + name` for a directory and a plain name, with no normalisation of `.`, `..` or repeated slashes. `path.resolve` is the parameter `resolve`.
- `extractText`'s probing of the SDK result is not modelled: each Gemini reply's text is a parameter.
- The Gemini SDK calls (`files.upload`, `files.get`, `models.generateContent`) are not modelled. Their outcome, including the "Failed to obtain uploaded file URI" error, is folded into the reply parameters.
- `saveUploadedFile` and `downloadToTmp` (the `fetch`, the random file name, their writes and their own `ensureDirs`): the upload's saved path and the download's result are inputs. Only the handler's own directory creation and writes are recorded as effects.
- The transcoder's run is recorded as an effect even when it fails. Its failure is the parameter `exec`.
- File-system failures in the handler are not modelled: `ensureDirs`, `saveUploadedFile` (with its `writeFile`), the `mkdir`s of the output and extraction directories and the `writeFile`s of the transcripts and the report (route.ts:42-43, 64, 87, 114, 335-336, 462) are assumed to succeed. The source answers such a failure (for example EACCES or ENOSPC) with 500; in the model each of these effects always succeeds, and only the download can fail.
- Timestamps, `log`, CORS headers and the `OPTIONS` handler are not modelled. The success reply's constant fields (`status`, `device`, `compute_type`) and its JSON encoding are also left out.
- The wording of V8's TypeErrors (reading a property of `null`, `.trim` or `.join` on a non-function, `Object.entries(null)`) is an approximation. Only the status derived from it matters, and none of these messages contains "Unsupported file type" or "not found".
- `uploadedMime` is computed by `Pipeline.Post` as the source does, but the source never uses it, so it does not appear in the outcome.
- The request body is taken as already read: a multipart request's `file` entry, or the parsed JSON body. A body that is not JSON is given as `{}`.
- Transcription.NormalizeTranscription: does not model the TypeError that `Number(..)` throws for an object whose `toString` or `valueOf` is not callable (route.ts:327). `JSON.parse('{"toString":0}')` yields such an object. For such a `language_confidence` the source throws, and the model reports success.
- Analysis.NormalizeAnalysis: does not model the same `Number(..)` TypeError for the three confidences (route.ts:381, 384, 391). For such a value the source throws, and the model reports success.
- AnalysisReport.Report: does not model the TypeError from `String(..)`, a template literal, `Number(..)` or `join` (route.ts:399-462) on an object from the reply whose `toString` or `valueOf` is not callable. The source throws for such a reply, and the model renders the report.
- Pipeline.SuccessfulRun: because of the three gaps above, a reply holding such an object ends in a 500 reply in the source but counts as a successful run in the model.
- JsValues.Entries: a member list with a repeated name lists it more than once, whereas `Object.entries` of a parsed object lists each name once, at its first position, with its last value. `JsValues.Member` does read the last value.
- Pipeline.ErrorText: an error with an empty message is reported as "Error". `String(e)` gives the error's name, such as "TypeError", and the model's error values do not carry one.
- The `src/app/api/cleanup/route.ts` endpoint and the React pages are not part of this model.

=== FILE: analysis.dfy ===
/**
 * What `geminiAnalyze` does before and after the model call: it shortens the
 * English transcript to at most 12000 characters, preferring to cut after a
 * sentence-ending period late in that window, and it fills in every field the
 * parsed analysis reply leaves missing or `null`.
 */
module Analysis {
  import opened JsStrings
  import opened JsValues

  /** The most characters sent for analysis. */
  const MaxAnalysisChars := 12000

  /** A period must lie beyond this index for the text to be cut after it. */
  const MinSentenceCut := 8000

  /** The characters of the analysed text a missing summary is made from. */
  const SummaryPrefixChars := 300

  /** The text sent for analysis: the first 12000 characters, cut back to just
      after the last period among them when the transcript is longer than
      that and the period lies beyond index 8000. */
  function AnalysisText(text: string): (r: string)
    ensures |r| <= MaxAnalysisChars && |r| <= |text| && r == text[..|r|]
    ensures |text| <= MaxAnalysisChars ==> r == text
    ensures |text| > MaxAnalysisChars && |r| < MaxAnalysisChars ==>
      (|r| > MinSentenceCut + 1 && text[|r| - 1] == '.' && forall j :: |r| <= j < MaxAnalysisChars ==> text[j] != '.')
    ensures |text| > MaxAnalysisChars ==>
      (|r| == MaxAnalysisChars <==>
        (text[MaxAnalysisChars - 1] == '.' || forall j :: MinSentenceCut < j < MaxAnalysisChars ==> text[j] != '.'))
  {
    var head := Prefix(text, MaxAnalysisChars);
    if |text| > MaxAnalysisChars then
      var lastPeriod := LastIndexOf(head, '.');
      if lastPeriod > MinSentenceCut then head[..lastPeriod + 1] else head
    else head
  }

  /** The reassignment of `textToAnalyze` in the source. */
  method PrepareAnalysisText(englishText: string) returns (textToAnalyze: string)
    ensures textToAnalyze == AnalysisText(englishText)
  {
    textToAnalyze := Prefix(englishText, MaxAnalysisChars);
    if |englishText| > MaxAnalysisChars {
      var lastPeriod := LastIndexOf(textToAnalyze, '.');
      if lastPeriod > MinSentenceCut {
        textToAnalyze := textToAnalyze[..lastPeriod + 1];
      }
    }
  }

  /** A long transcript whose last period in the window lies at `k`, beyond
      index 8000, is cut just after it. */
  lemma CutAfterLastPeriod(text: string, k: nat)
    requires |text| > MaxAnalysisChars
    requires MinSentenceCut < k < MaxAnalysisChars && text[k] == '.'
    requires forall j :: k < j < MaxAnalysisChars ==> text[j] != '.'
    ensures AnalysisText(text) == text[..k + 1]
  {
    var r := AnalysisText(text);
    assert |r| >= k + 1;
  }

  /** A long transcript with no period beyond index 8000 in the window is cut
      at exactly 12000 characters. */
  lemma NoLatePeriodKeepsWindow(text: string)
    requires |text| > MaxAnalysisChars
    requires forall j :: MinSentenceCut < j < MaxAnalysisChars ==> text[j] != '.'
    ensures AnalysisText(text) == text[..MaxAnalysisChars]
  {
  }

  /** The analysis after defaulting. Confidences are the values before
      `Number(...)` coercion. */
  datatype Analysis = Analysis(
    dominantEmotion: Json,
    emotionConfidence: Json,
    emotionScores: Json,
    overallSentiment: Json,
    sentimentConfidence: Json,
    sentimentBreakdown: Json,
    primaryIntent: Json,
    intentConfidence: Json,
    intentScores: Json,
    secondaryIntents: Json,
    summary: Json,
    keyTopics: Json,
    contentType: Json)

  /** The breakdown used when the reply has none. */
  const DefaultBreakdown: Json :=
    JObj([("positive", JNum(0.33)), ("neutral", JNum(0.34)), ("negative", JNum(0.33))])

  /** The summary used when the reply has none: the start of the analysed text and an ellipsis. */
  function DefaultSummary(analysed: string): (s: string)
    ensures |s| == (if |analysed| <= SummaryPrefixChars then |analysed| else SummaryPrefixChars) + 3
    ensures s[..|s| - 3] == analysed[..|s| - 3] && s[|s| - 3..] == "..."
  {
    var head := Prefix(analysed, SummaryPrefixChars);
    assert (head + "...")[..|head|] == head;
    head + "..."
  }

  /** The analysis every field of which took its default: `null` for the
      dominant emotion and the primary intent, `{}` for the score maps, `[]`
      for the lists, zero confidences, "neutral", the 0.33/0.34/0.33
      breakdown, "unknown" and a summary made from the analysed text. */
  function DefaultAnalysis(analysed: string): (d: Analysis)
    ensures d.dominantEmotion == JNull && d.primaryIntent == JNull
    ensures d.emotionScores == EmptyObject && d.intentScores == EmptyObject
    ensures d.secondaryIntents == JArr([]) && d.keyTopics == JArr([])
    ensures d.emotionConfidence == d.sentimentConfidence == d.intentConfidence == JNum(0.0)
    ensures d.overallSentiment == JStr("neutral") && d.contentType == JStr("unknown")
    ensures d.sentimentBreakdown == DefaultBreakdown
    ensures d.summary == JStr(DefaultSummary(analysed))
  {
    Analysis(JNull, JNum(0.0), EmptyObject, JStr("neutral"), JNum(0.0), DefaultBreakdown,
             JNull, JNum(0.0), EmptyObject, JArr([]), JStr(DefaultSummary(analysed)), JArr([]),
             JStr("unknown"))
  }

  /** Every field of the analysis is `null` only if it is one of the two
      (emotion, intent) whose default is `null`: the maps, lists and texts the
      report reads are never `null`. */
  predicate ReportReady(a: Analysis) {
    a.emotionScores != JNull && a.sentimentBreakdown != JNull && a.intentScores != JNull
    && a.secondaryIntents != JNull && a.keyTopics != JNull && a.summary != JNull
    && a.contentType != JNull && a.overallSentiment != JNull
    && a.emotionConfidence != JNull && a.sentimentConfidence != JNull && a.intentConfidence != JNull
  }

  /** The defaulted analysis of a parsed reply; reading a field of a `null`
      reply throws. */
  function NormalizeAnalysis(data: Json, analysed: string): (r: Result<Analysis>)
    ensures r.Err? <==> data == JNull
    ensures r.Err? ==> r.message == NullReadError("dominant_emotion")
    ensures r.Ok? ==> ReportReady(r.value)
  {
    if data == JNull then Err(NullReadError("dominant_emotion"))
    else
      var d := DefaultAnalysis(analysed);
      Ok(Analysis(
        Coalesce(Prop(data, "dominant_emotion"), d.dominantEmotion),
        Coalesce(Prop(data, "emotion_confidence"), d.emotionConfidence),
        Coalesce(Prop(data, "emotion_scores"), d.emotionScores),
        Coalesce(Prop(data, "overall_sentiment"), d.overallSentiment),
        Coalesce(Prop(data, "sentiment_confidence"), d.sentimentConfidence),
        Coalesce(Prop(data, "sentiment_breakdown"), d.sentimentBreakdown),
        Coalesce(Prop(data, "primary_intent"), d.primaryIntent),
        Coalesce(Prop(data, "intent_confidence"), d.intentConfidence),
        Coalesce(Prop(data, "intent_scores"), d.intentScores),
        Coalesce(Prop(data, "secondary_intents"), d.secondaryIntents),
        Coalesce(Prop(data, "summary"), d.summary),
        Coalesce(Prop(data, "key_topics"), d.keyTopics),
        Coalesce(Prop(data, "content_type"), d.contentType)))
  }

  /** A reply with no usable fields (`{}`, a number, a string, a list)
      yields the all-default analysis. */
  lemma UnusableReplyGivesDefaults(data: Json, analysed: string)
    requires data != JNull && !data.JObj?
    ensures NormalizeAnalysis(data, analysed) == Ok(DefaultAnalysis(analysed))
  {
  }

  /** The empty object also yields the all-default analysis. */
  lemma EmptyReplyGivesDefaults(analysed: string)
    ensures NormalizeAnalysis(EmptyObject, analysed) == Ok(DefaultAnalysis(analysed))
  {
  }

  /** The fields of the analysis, one per member of the reply. */
  datatype Key =
    | DominantEmotionKey | EmotionConfidenceKey | EmotionScoresKey
    | OverallSentimentKey | SentimentConfidenceKey | SentimentBreakdownKey
    | PrimaryIntentKey | IntentConfidenceKey | IntentScoresKey | SecondaryIntentsKey
    | SummaryKey | KeyTopicsKey | ContentTypeKey

  /** The reply's member name for a field. */
  function Name(k: Key): string {
    match k
    case DominantEmotionKey => "dominant_emotion"
    case EmotionConfidenceKey => "emotion_confidence"
    case EmotionScoresKey => "emotion_scores"
    case OverallSentimentKey => "overall_sentiment"
    case SentimentConfidenceKey => "sentiment_confidence"
    case SentimentBreakdownKey => "sentiment_breakdown"
    case PrimaryIntentKey => "primary_intent"
    case IntentConfidenceKey => "intent_confidence"
    case IntentScoresKey => "intent_scores"
    case SecondaryIntentsKey => "secondary_intents"
    case SummaryKey => "summary"
    case KeyTopicsKey => "key_topics"
    case ContentTypeKey => "content_type"
  }

  /** The field of the analysis named by `k`. */
  function Field(a: Analysis, k: Key): Json {
    match k
    case DominantEmotionKey => a.dominantEmotion
    case EmotionConfidenceKey => a.emotionConfidence
    case EmotionScoresKey => a.emotionScores
    case OverallSentimentKey => a.overallSentiment
    case SentimentConfidenceKey => a.sentimentConfidence
    case SentimentBreakdownKey => a.sentimentBreakdown
    case PrimaryIntentKey => a.primaryIntent
    case IntentConfidenceKey => a.intentConfidence
    case IntentScoresKey => a.intentScores
    case SecondaryIntentsKey => a.secondaryIntents
    case SummaryKey => a.summary
    case KeyTopicsKey => a.keyTopics
    case ContentTypeKey => a.contentType
  }

  /** Every field is the reply's member of the same name when that member is
      present and not `null` (even when it is falsy, such as 0, "" or false),
      and the field's default otherwise. */
  lemma OnlyMissingFieldsReplaced(data: Json, analysed: string, k: Key)
    requires data != JNull
    ensures var x := Prop(data, Name(k));
      Field(NormalizeAnalysis(data, analysed).value, k)
        == if x.Some? && x.value != JNull then x.value else Field(DefaultAnalysis(analysed), k)
  {
  }

  /** A reply without a summary gets the first 300 characters of the
      analysed text followed by "...". */
  lemma MissingSummaryFromText(data: Json, analysed: string)
    requires data != JNull
    requires var s := Prop(data, "summary"); s.None? || s.value == JNull
    ensures NormalizeAnalysis(data, analysed).value.summary == JStr(DefaultSummary(analysed))
    ensures var s := NormalizeAnalysis(data, analysed).value.summary.s;
      |s| == (if |analysed| <= SummaryPrefixChars then |analysed| else SummaryPrefixChars) + 3
      && StartsWith(analysed, s[..|s| - 3]) && s[|s| - 3..] == "..."
  {
  }
}

=== FILE: js_strings.dfy ===
/**
 * The handful of JavaScript string built-ins the analyze route relies on
 * (`trim`, `indexOf`, `lastIndexOf`, `startsWith`, `includes`, `slice`,
 * `toLowerCase` and the `[-\s]` replacement), each with a contract that says
 * what it finds or removes.  Strings are sequences of characters; indices
 * count characters.
 */
module JsStrings {

  /** The characters `String.prototype.trim` strips and the regular-expression
      class `\s` matches: ECMAScript WhiteSpace and LineTerminator. */
  predicate IsSpace(c: char) {
    var n := c as int;
    n == 0x09 || n == 0x0A || n == 0x0B || n == 0x0C || n == 0x0D || n == 0x20
    || n == 0xA0 || n == 0x1680 || (0x2000 <= n <= 0x200A) || n == 0x2028 || n == 0x2029
    || n == 0x202F || n == 0x205F || n == 0x3000 || n == 0xFEFF
  }

  /** Neither end of `s` is a space: what `trim` produces. */
  predicate IsTrimmed(s: string) {
    s == [] || (!IsSpace(s[0]) && !IsSpace(s[|s| - 1]))
  }

  /** The first index at or after `i` that does not hold a space (`|s|` when there is none). */
  function SkipSpaces(s: string, i: nat): (k: nat)
    requires i <= |s|
    ensures i <= k <= |s|
    ensures forall j :: i <= j < k ==> IsSpace(s[j])
    ensures k < |s| ==> !IsSpace(s[k])
    decreases |s| - i
  {
    if i < |s| && IsSpace(s[i]) then SkipSpaces(s, i + 1) else i
  }

  /** Going back from `e`, no lower than `lo`: the end of the last non-space before `e`. */
  function SkipSpacesBack(s: string, lo: nat, e: nat): (k: nat)
    requires lo <= e <= |s|
    ensures lo <= k <= e
    ensures forall j :: k <= j < e ==> IsSpace(s[j])
    ensures k > lo ==> !IsSpace(s[k - 1])
  {
    if e > lo && IsSpace(s[e - 1]) then SkipSpacesBack(s, lo, e - 1) else e
  }

  /** `s.trim()`: spaces removed from both ends and nothing else; a trimmed
      string is left as it is. */
  function Trim(s: string): (r: string)
    ensures IsTrimmed(r)
    ensures |r| <= |s|
    ensures IsTrimmed(s) ==> r == s
  {
    var a := SkipSpaces(s, 0);
    s[a..SkipSpacesBack(s, a, |s|)]
  }

  /** `Trim(s)` is the slice `s[a..b]`, and everything cut off on either side is space. */
  lemma TrimBounds(s: string) returns (a: nat, b: nat)
    ensures a <= b <= |s| && Trim(s) == s[a..b]
    ensures forall i :: 0 <= i < a ==> IsSpace(s[i])
    ensures forall i :: b <= i < |s| ==> IsSpace(s[i])
  {
    a := SkipSpaces(s, 0);
    b := SkipSpacesBack(s, a, |s|);
  }

  /** A non-empty trimmed string padded with spaces on both sides trims back to itself. */
  lemma TrimOfPadded(pre: string, x: string, post: string)
    requires forall i :: 0 <= i < |pre| ==> IsSpace(pre[i])
    requires forall i :: 0 <= i < |post| ==> IsSpace(post[i])
    requires x != [] && IsTrimmed(x)
    ensures Trim(pre + x + post) == x
  {
    var s := pre + x + post;
    var a := SkipSpaces(s, 0);
    assert s[|pre|] == x[0];
    assert a == |pre|;
    var b := SkipSpacesBack(s, a, |s|);
    assert s[|pre| + |x| - 1] == x[|x| - 1];
    assert b == |pre| + |x|;
    assert s[a..b] == x;
  }

  /** Trimming twice is trimming once. */
  lemma TrimIdempotent(s: string)
    ensures Trim(Trim(s)) == Trim(s)
  {
  }

  /** `p` occurs in `s` at index `i`. */
  predicate OccursAt(s: string, p: string, i: int) {
    0 <= i && i + |p| <= |s| && s[i..i + |p|] == p
  }

  /** A one-character pattern occurs exactly where that character stands. */
  lemma OccursAtChar(s: string, c: char, i: int)
    ensures OccursAt(s, [c], i) <==> (0 <= i < |s| && s[i] == c)
  {
    if 0 <= i < |s| {
      assert s[i..i + 1] == [s[i]];
    }
  }

  /** The search loop behind `indexOf`: the first occurrence of `p` at or after `from`. */
  function SearchFrom(s: string, p: string, from: nat): (r: int)
    requires from <= |s|
    ensures r == -1 || (from <= r <= |s| && OccursAt(s, p, r))
    ensures r == -1 ==> forall j :: from <= j ==> !OccursAt(s, p, j)
    ensures r >= 0 ==> forall j :: from <= j < r ==> !OccursAt(s, p, j)
    decreases |s| - from
  {
    if OccursAt(s, p, from) then from
    else if from == |s| then -1
    else SearchFrom(s, p, from + 1)
  }

  /** `s.indexOf(p, from)`: a start position past the end is clamped to the end. */
  function IndexOfFrom(s: string, p: string, from: nat): (r: int)
    ensures r == -1 || (from <= r && OccursAt(s, p, r)) || (p == [] && r == |s| < from)
    ensures r == -1 ==> forall j :: from <= j ==> !OccursAt(s, p, j)
    ensures r >= 0 ==> forall j :: from <= j < r ==> !OccursAt(s, p, j)
  {
    if from <= |s| then SearchFrom(s, p, from) else SearchFrom(s, p, |s|)
  }

  /** `s.indexOf(p)`: the first occurrence of `p`, or -1 when there is none. */
  function IndexOf(s: string, p: string): (r: int)
    ensures r == -1 <==> forall j :: !OccursAt(s, p, j)
    ensures r >= 0 ==> OccursAt(s, p, r) && forall j :: 0 <= j < r ==> !OccursAt(s, p, j)
  {
    IndexOfFrom(s, p, 0)
  }

  /** The last index before `e` holding `c`, or -1 when there is none. */
  function LastIndexBefore(s: string, c: char, e: nat): (r: int)
    requires e <= |s|
    ensures -1 <= r < e
    ensures r == -1 <==> forall j :: 0 <= j < e ==> s[j] != c
    ensures r >= 0 ==> s[r] == c && forall j :: r < j < e ==> s[j] != c
  {
    if e == 0 then -1
    else if s[e - 1] == c then e - 1
    else LastIndexBefore(s, c, e - 1)
  }

  /** `s.lastIndexOf(c)` for a one-character search string: the last index
      holding `c`, or -1 when `c` does not occur. */
  function LastIndexOf(s: string, c: char): (r: int)
    ensures -1 <= r < |s|
    ensures r == -1 <==> forall j :: 0 <= j < |s| ==> s[j] != c
    ensures r >= 0 ==> s[r] == c && forall j :: r < j < |s| ==> s[j] != c
  {
    LastIndexBefore(s, c, |s|)
  }

  /** `s.startsWith(p)`. */
  predicate StartsWith(s: string, p: string) {
    |p| <= |s| && s[..|p|] == p
  }

  /** `s.includes(p)`: some occurrence of `p` exists. */
  function Includes(s: string, p: string): (b: bool)
    ensures b <==> exists j :: OccursAt(s, p, j)
  {
    IndexOf(s, p) != -1
  }

  /** A string includes each of its prefixes. */
  lemma IncludesPrefix(p: string, rest: string)
    ensures Includes(p + rest, p)
  {
    assert (p + rest)[0..|p|] == p;
    assert OccursAt(p + rest, p, 0);
  }

  /** `s.slice(0, n)`: the first `n` characters, or all of `s` when it is shorter. */
  function Prefix(s: string, n: nat): (r: string)
    ensures |r| == if |s| <= n then |s| else n
    ensures r == s[..|r|]
  {
    if |s| <= n then s else s[..n]
  }

  /** ASCII upper-case letters map to lower case; every other character is kept. */
  function LowerChar(c: char): char {
    if 'A' <= c <= 'Z' then (c as int - 'A' as int + 'a' as int) as char else c
  }

  /** `s.toLowerCase()` restricted to ASCII letters. */
  function ToLower(s: string): (r: string)
    ensures |r| == |s|
    ensures forall i :: 0 <= i < |s| ==> r[i] == LowerChar(s[i])
  {
    seq(|s|, i requires 0 <= i < |s| => LowerChar(s[i]))
  }

  /** No ASCII upper-case letter occurs in `s`. */
  predicate NoUpper(s: string) {
    forall i :: 0 <= i < |s| ==> !('A' <= s[i] <= 'Z')
  }

  /** Lower-casing leaves no upper-case ASCII letter and does not touch a
      string that has none. */
  lemma ToLowerNoUpper(s: string)
    ensures NoUpper(ToLower(s))
    ensures NoUpper(s) ==> ToLower(s) == s
  {
  }

  /** Lower-casing cannot put a space at either end of a trimmed string. */
  lemma LowerKeepsTrimmed(s: string)
    requires IsTrimmed(s)
    ensures IsTrimmed(ToLower(s))
  {
  }

  /** The character `s.replace(/[-\s]/g, "_")` puts at one position. */
  function Underscored(c: char): char {
    if c == '-' || IsSpace(c) then '_' else c
  }

  /** `s.replace(/[-\s]/g, "_")`: every hyphen and every space becomes an underscore. */
  function ReplaceDashesAndSpaces(s: string): (r: string)
    ensures |r| == |s|
    ensures forall i :: 0 <= i < |s| ==> r[i] == Underscored(s[i])
    ensures forall i :: 0 <= i < |r| ==> r[i] != '-' && !IsSpace(r[i])
  {
    seq(|s|, i requires 0 <= i < |s| => Underscored(s[i]))
  }

  /** Replacing again changes nothing: the result holds no hyphen and no space. */
  lemma ReplaceDashesAndSpacesIdempotent(s: string)
    ensures ReplaceDashesAndSpaces(ReplaceDashesAndSpaces(s)) == ReplaceDashesAndSpaces(s)
  {
  }
}

=== FILE: js_values.dfy ===
/**
 * JSON values as the analyze route sees them after `JSON.parse`, and the few
 * JavaScript operators it applies to them: truthiness, `||`, `??`, property
 * reads, `Object.entries` and optional-chained `.length`.
 */
module JsValues {

  datatype Option<+T> = None | Some(value: T)

  /** The outcome of a step that may throw: `Err` carries the thrown error's message. */
  datatype Result<+T> = Ok(value: T) | Err(message: string)

  /** A value `JSON.parse` can return.  An object keeps its members in source order. */
  datatype Json =
    | JNull
    | JBool(b: bool)
    | JNum(n: real)
    | JStr(s: string)
    | JArr(items: seq<Json>)
    | JObj(members: seq<(string, Json)>)

  /** The empty object `{}`. */
  const EmptyObject: Json := JObj([])

  /** JavaScript truthiness of a JSON value (`undefined` is `None` and falsy). */
  predicate Truthy(v: Json) {
    match v
    case JNull => false
    case JBool(b) => b
    case JNum(n) => n != 0.0
    case JStr(s) => s != []
    case _ => true
  }

  /** The member named `k` of an object's member list, if any; of several
      members with that name the last one wins, as in `JSON.parse`. */
  function Member(ms: seq<(string, Json)>, k: string): (r: Option<Json>)
    ensures r.Some? <==> exists i :: 0 <= i < |ms| && ms[i].0 == k
    ensures r.Some? ==> exists i :: 0 <= i < |ms| && ms[i] == (k, r.value) && LastNamed(ms, k, i)
  {
    if ms == [] then None
    else if ms[|ms| - 1].0 == k then Some(ms[|ms| - 1].1)
    else Member(ms[..|ms| - 1], k)
  }

  /** No member after position `i` is named `k`. */
  predicate LastNamed(ms: seq<(string, Json)>, k: string, i: nat) {
    forall j :: i < j < |ms| ==> ms[j].0 != k
  }

  /** A member whose name occurs once is the one read. */
  lemma MemberOfLastName(ms: seq<(string, Json)>, k: string, i: nat)
    requires i < |ms| && ms[i].0 == k && LastNamed(ms, k, i)
    ensures Member(ms, k) == Some(ms[i].1)
    decreases |ms|
  {
    if i < |ms| - 1 {
      MemberOfLastName(ms[..|ms| - 1], k, i);
    }
  }

  /** `v.k` on a value that is not `null`: an object's member, `undefined` for
      every other kind of value (none of the names read here is a built-in
      property of strings, numbers, booleans or arrays). */
  function Prop(v: Json, k: string): Option<Json>
    requires v != JNull
  {
    if v.JObj? then Member(v.members, k) else None
  }

  /** The message of the TypeError that reading `k` from `null` throws. */
  function NullReadError(k: string): string {
    "Cannot read properties of null (reading '" + k + "')"
  }

  /** `x || d`. */
  function Or(x: Option<Json>, d: Json): (r: Json)
    ensures x.Some? && Truthy(x.value) ==> r == x.value
    ensures (x.None? || !Truthy(x.value)) ==> r == d
  {
    if x.Some? && Truthy(x.value) then x.value else d
  }

  /** `x ?? d`: only `undefined` and `null` are replaced. */
  function Coalesce(x: Option<Json>, d: Json): (r: Json)
    ensures x.Some? && x.value != JNull ==> r == x.value
    ensures (x.None? || x.value == JNull) ==> r == d
  {
    if x.Some? && x.value != JNull then x.value else d
  }

  /** `??` keeps falsy values that `||` would replace. */
  lemma CoalesceKeepsFalsy(v: Json, d: Json)
    requires v != JNull && !Truthy(v) && v != d
    ensures Coalesce(Some(v), d) == v && Or(Some(v), d) == d
  {
  }

  /** The number a string of decimal digits denotes. */
  function DigitsValue(s: string): nat
    requires forall j :: 0 <= j < |s| ==> '0' <= s[j] <= '9'
  {
    if s == [] then 0 else DigitsValue(s[..|s| - 1]) * 10 + (s[|s| - 1] as int - '0' as int)
  }

  /** The decimal digits of a natural number, as `String(i)` writes them:
      digits only, denoting `i`, with no leading zero. */
  function DecimalString(i: nat): (r: string)
    ensures |r| >= 1
    ensures forall j :: 0 <= j < |r| ==> '0' <= r[j] <= '9'
    ensures DigitsValue(r) == i
    ensures |r| > 1 ==> r[0] != '0'
    decreases i
  {
    var d := ['0' + (i % 10) as char];
    if i < 10 then d
    else
      var h := DecimalString(i / 10);
      assert (h + d)[..|h + d| - 1] == h;
      h + d
  }

  /** `Object.entries(v)` for a value that is not `null`: an object's members;
      the elements of an array or the characters of a string keyed by their
      index; nothing for a number or a boolean. */
  function Entries(v: Json): (r: seq<(string, Json)>)
    requires v != JNull
    ensures v.JObj? ==> r == v.members
    ensures v.JArr? ==> |r| == |v.items| && forall i :: 0 <= i < |r| ==> r[i].1 == v.items[i]
    ensures v.JStr? ==> |r| == |v.s| && forall i :: 0 <= i < |r| ==> r[i].1 == JStr([v.s[i]])
    ensures (v.JNum? || v.JBool?) ==> r == []
  {
    match v
    case JObj(ms) => ms
    case JArr(items) => IndexedItems(items)
    case JStr(s) => IndexedChars(s)
    case _ => []
  }

  function IndexedItems(items: seq<Json>): (r: seq<(string, Json)>)
    ensures |r| == |items| && forall i :: 0 <= i < |r| ==> r[i] == (DecimalString(i), items[i])
  {
    seq(|items|, i requires 0 <= i < |items| => (DecimalString(i), items[i]))
  }

  function IndexedChars(s: string): (r: seq<(string, Json)>)
    ensures |r| == |s| && forall i :: 0 <= i < |r| ==> r[i] == (DecimalString(i), JStr([s[i]]))
  {
    seq(|s|, i requires 0 <= i < |s| => (DecimalString(i), JStr([s[i]])))
  }

  /** `v?.length`: the length of an array or a string, an object's `length`
      member, and `undefined` otherwise (including for `null`). */
  function Length(v: Json): (r: Option<Json>)
    ensures v.JArr? ==> r == Some(JNum(|v.items| as real))
    ensures v.JStr? ==> r == Some(JNum(|v.s| as real))
    ensures (v.JNull? || v.JNum? || v.JBool?) ==> r == None
  {
    match v
    case JArr(items) => Some(JNum(|items| as real))
    case JStr(s) => Some(JNum(|s| as real))
    case JObj(ms) => Member(ms, "length")
    case _ => None
  }

  /** `if (v?.length)`: taken exactly for a non-empty array, a non-empty
      string, or an object whose `length` member is truthy. */
  predicate HasLength(v: Json) {
    var n := Length(v);
    n.Some? && Truthy(n.value)
  }

  lemma HasLengthCases(v: Json)
    ensures v.JArr? ==> (HasLength(v) <==> v.items != [])
    ensures v.JStr? ==> (HasLength(v) <==> v.s != [])
    ensures (v.JNull? || v.JNum? || v.JBool?) ==> !HasLength(v)
  {
  }
}

=== FILE: json_extract.dfy ===
/**
 * `safeJsonParse`: the tolerant reading of a model reply as JSON.  The reply
 * is trimmed and then three candidate texts are handed to `JSON.parse`, in a
 * fixed order, before giving up with the empty object:
 *   1. the whole trimmed reply;
 *   2. the trimmed text between the first "```" and the next one;
 *   3. the text from the first `{` to the last `}`, both included.
 * `JSON.parse` is the parameter `parse`: `None` where it would throw.
 */
module JsonExtract {
  import opened JsStrings
  import opened JsValues

  /** The Markdown code-fence marker. */
  const Fence := "```"

  /** The second candidate: when the reply holds a fence, and the next fence
      after it does not follow it immediately, the trimmed text between them. */
  function FencedCandidate(t: string): (c: Option<string>)
    ensures (forall j :: !OccursAt(t, Fence, j)) ==> c.None?
    ensures c.Some? ==> IsTrimmed(c.value) && |c.value| < |t| - |Fence|
  {
    var m := IndexOf(t, Fence);
    if m == -1 then None
    else
      var start := m + |Fence|;
      var end := IndexOfFrom(t, Fence, start);
      if end > start then Some(Trim(t[start..end])) else None
  }

  /** The fenced candidate is the trimmed text strictly between the first
      fence and the first fence that starts after it ends. */
  lemma FencedCandidateBetweenFences(t: string) returns (m: nat, e: nat)
    requires FencedCandidate(t).Some?
    ensures OccursAt(t, Fence, m) && forall j :: 0 <= j < m ==> !OccursAt(t, Fence, j)
    ensures m + |Fence| < e && OccursAt(t, Fence, e)
    ensures forall j :: m + |Fence| <= j < e ==> !OccursAt(t, Fence, j)
    ensures FencedCandidate(t) == Some(Trim(t[m + |Fence|..e]))
  {
    m := IndexOf(t, Fence);
    e := IndexOfFrom(t, Fence, m + |Fence|);
  }

  /** Conversely, a first fence and the first fence that starts after it
      ends, with a gap between them, give the trimmed text of the gap. */
  lemma FencedCandidateOfFences(t: string, m: nat, e: nat)
    requires OccursAt(t, Fence, m) && forall j :: 0 <= j < m ==> !OccursAt(t, Fence, j)
    requires m + |Fence| < e && OccursAt(t, Fence, e)
    requires forall j :: m + |Fence| <= j < e ==> !OccursAt(t, Fence, j)
    ensures FencedCandidate(t) == Some(Trim(t[m + |Fence|..e]))
  {
    assert IndexOf(t, Fence) == m;
    assert IndexOfFrom(t, Fence, m + |Fence|) == e;
  }

  /** The third candidate: from the first `{` to the last `}`, when the last
      `}` comes after the first `{`. */
  function BracedCandidate(t: string): (c: Option<string>)
    ensures c.Some? ==> |c.value| >= 2 && c.value[0] == '{' && c.value[|c.value| - 1] == '}'
  {
    var s := IndexOf(t, "{");
    var e := LastIndexOf(t, '}');
    if s != -1 && e != -1 && e > s then
      OccursAtChar(t, '{', s);
      Some(t[s..e + 1])
    else None
  }

  /** The braced candidate starts at the first `{` and ends at the last `}`. */
  lemma BracedCandidateSpan(t: string) returns (s: nat, e: nat)
    requires BracedCandidate(t).Some?
    ensures s < e < |t| && BracedCandidate(t) == Some(t[s..e + 1])
    ensures t[s] == '{' && forall j :: 0 <= j < s ==> t[j] != '{'
    ensures t[e] == '}' && forall j :: e < j < |t| ==> t[j] != '}'
  {
    s := IndexOf(t, "{");
    e := LastIndexOf(t, '}');
    OccursAtChar(t, '{', s);
    forall j | 0 <= j < s
      ensures t[j] != '{'
    {
      OccursAtChar(t, '{', j);
    }
  }

  /** The fence step succeeds: there is a fence candidate and it parses. */
  predicate FencedParses(t: string, parse: string -> Option<Json>) {
    FencedCandidate(t).Some? && parse(FencedCandidate(t).value).Some?
  }

  /** The brace step succeeds: there is a brace candidate and it parses. */
  predicate BracedParses(t: string, parse: string -> Option<Json>) {
    BracedCandidate(t).Some? && parse(BracedCandidate(t).value).Some?
  }

  /** `safeJsonParse(text)`: never throws; the first candidate that parses wins,
      and `{}` is the answer when none does. */
  function SafeJsonParse(text: string, parse: string -> Option<Json>): (r: Json)
    ensures parse(Trim(text)).Some? ==> r == parse(Trim(text)).value
    ensures r == EmptyObject || parse(Trim(text)) == Some(r)
         || (FencedCandidate(Trim(text)).Some? && parse(FencedCandidate(Trim(text)).value) == Some(r))
         || (BracedCandidate(Trim(text)).Some? && parse(BracedCandidate(Trim(text)).value) == Some(r))
    ensures var t := Trim(text);
      parse(t).None? && FencedParses(t, parse) ==> r == parse(FencedCandidate(t).value).value
    ensures var t := Trim(text);
      parse(t).None? && !FencedParses(t, parse) && BracedParses(t, parse)
      ==> r == parse(BracedCandidate(t).value).value
    ensures var t := Trim(text);
      parse(t).None? && !FencedParses(t, parse) && !BracedParses(t, parse) ==> r == EmptyObject
  {
    var t := Trim(text);
    var whole := parse(t);
    if whole.Some? then whole.value
    else
      var fenced := FencedCandidate(t);
      var fromFence := if fenced.Some? then parse(fenced.value) else None;
      if fromFence.Some? then fromFence.value
      else
        var braced := BracedCandidate(t);
        var fromBraces := if braced.Some? then parse(braced.value) else None;
        if fromBraces.Some? then fromBraces.value
        else EmptyObject
  }

  /** Whatever the reply, the result is `{}` or what `JSON.parse` gives for a
      trimmed piece of the trimmed reply. */
  lemma SafeJsonParseSound(text: string, parse: string -> Option<Json>)
    ensures var t := Trim(text);
      SafeJsonParse(text, parse) == EmptyObject
      || exists i, j :: 0 <= i <= j <= |t| && parse(Trim(t[i..j])) == Some(SafeJsonParse(text, parse))
  {
    var t := Trim(text);
    var r := SafeJsonParse(text, parse);
    if parse(t) == Some(r) {
      assert t[0..|t|] == t;
      assert Trim(t[0..|t|]) == t;
    } else if FencedCandidate(t).Some? && parse(FencedCandidate(t).value) == Some(r) {
      var m, e := FencedCandidateBetweenFences(t);
      assert parse(Trim(t[m + |Fence|..e])) == Some(r);
    } else if BracedCandidate(t).Some? && parse(BracedCandidate(t).value) == Some(r) {
      var s, e := BracedCandidateSpan(t);
      var c := BracedCandidate(t).value;
      assert !IsSpace('{') && !IsSpace('}');
      assert IsTrimmed(c);
      assert parse(Trim(t[s..e + 1])) == Some(r);
    }
  }

  /** A reply with no backtick has no fence. */
  lemma NoFenceWithoutBacktick(t: string)
    requires forall i :: 0 <= i < |t| ==> t[i] != '`'
    ensures FencedCandidate(t).None?
  {
    NoFenceWhereNoBacktick(t, 0, |t|);
  }

  /** No fence starts where there is no backtick. */
  lemma NoFenceWhereNoBacktick(t: string, lo: nat, hi: nat)
    requires forall i :: lo <= i < hi && i < |t| ==> t[i] != '`'
    ensures forall j :: lo <= j < hi ==> !OccursAt(t, Fence, j)
  {
    forall j | lo <= j < hi
      ensures !OccursAt(t, Fence, j)
    {
      if j + |Fence| <= |t| {
        assert t[j..j + |Fence|][0] == t[j];
      }
    }
  }

  /** A reply with neither a backtick nor a `{` that `JSON.parse` rejects
      yields `{}`. */
  lemma PlainProseGivesEmptyObject(text: string, parse: string -> Option<Json>)
    requires forall i :: 0 <= i < |text| ==> text[i] != '`' && text[i] != '{'
    requires parse(Trim(text)).None?
    ensures SafeJsonParse(text, parse) == EmptyObject
  {
    var t := Trim(text);
    var a, b := TrimBounds(text);
    assert forall i :: 0 <= i < |t| ==> t[i] == text[a + i];
    NoFenceWithoutBacktick(t);
    forall j | 0 <= j < |t|
      ensures !OccursAt(t, "{", j)
    {
      OccursAtChar(t, '{', j);
    }
  }

  /** An object wrapped in prose (no backticks anywhere, no `{` before it, no
      `}` after it) is recovered by the brace step. */
  lemma ProseWrappedObjectRecovered(pre: string, obj: string, post: string, parse: string -> Option<Json>)
    requires IsTrimmed(pre + obj + post)
    requires |obj| >= 2 && obj[0] == '{' && obj[|obj| - 1] == '}'
    requires forall i :: 0 <= i < |pre| ==> pre[i] != '{' && pre[i] != '`'
    requires forall i :: 0 <= i < |obj| ==> obj[i] != '`'
    requires forall i :: 0 <= i < |post| ==> post[i] != '}' && post[i] != '`'
    requires parse(pre + obj + post).None?
    requires parse(obj).Some?
    ensures SafeJsonParse(pre + obj + post, parse) == parse(obj).value
  {
    var t := pre + obj + post;
    assert Trim(t) == t;
    NoFenceWithoutBacktick(t);
    BracedAround(pre, obj, post);
  }

  /** The braced candidate of `pre + obj + post`, when `pre` has no `{` and
      `post` no `}`, is `obj`. */
  lemma BracedAround(pre: string, obj: string, post: string)
    requires |obj| >= 2 && obj[0] == '{' && obj[|obj| - 1] == '}'
    requires forall i :: 0 <= i < |pre| ==> pre[i] != '{'
    requires forall i :: 0 <= i < |post| ==> post[i] != '}'
    ensures BracedCandidate(pre + obj + post) == Some(obj)
  {
    var t := pre + obj + post;
    assert t[|pre|] == '{';
    forall j | 0 <= j < |pre|
      ensures !OccursAt(t, "{", j)
    {
      OccursAtChar(t, '{', j);
      assert t[j] == pre[j];
    }
    OccursAtChar(t, '{', |pre|);
    assert IndexOf(t, "{") == |pre|;
    var e := |pre| + |obj| - 1;
    assert t[e] == '}';
    assert forall j :: e < j < |t| ==> t[j] == post[j - e - 1];
    assert LastIndexOf(t, '}') == e;
    assert t[|pre|..e + 1] == obj;
  }

  /** A reply made of prose without backticks or braces followed by one
      "```json" fenced block holding an object is not read by the fence step,
      whose candidate keeps the `json` tag, but by the brace step. */
  lemma FencedJsonRecoveredByBraces(pre: string, body: string, parse: string -> Option<Json>)
    requires pre == [] || !IsSpace(pre[0])
    requires forall i :: 0 <= i < |pre| ==> pre[i] != '`' && pre[i] != '{'
    requires |body| >= 2 && body[0] == '{' && body[|body| - 1] == '}'
    requires forall i :: 0 <= i < |body| ==> body[i] != '`'
    requires parse(pre + "```json\n" + body + "\n```").None?
    requires parse("json\n" + body).None?
    ensures SafeJsonParse(pre + "```json\n" + body + "\n```", parse)
         == if parse(body).Some? then parse(body).value else EmptyObject
  {
    var t := pre + "```json\n" + body + "\n```";
    assert t[|t| - 1] == '`';
    if pre != [] {
      assert t[0] == pre[0];
    }
    assert IsTrimmed(t);
    assert Trim(t) == t;
    FenceOfTaggedBlock(pre, body);
    var lead := pre + "```json\n";
    FenceTagsHoldNoBraces();
    assert forall i :: 0 <= i < |lead| ==> lead[i] != '{' by {
      forall i | 0 <= i < |lead|
        ensures lead[i] != '{'
      {
        if i >= |pre| {
          assert lead[i] == "```json\n"[i - |pre|];
        }
      }
    }
    assert t == lead + body + "\n```";
    BracedAround(lead, body, "\n```");
  }

  /** The opening "```json" line holds no `{` and the closing fence no `}`. */
  lemma FenceTagsHoldNoBraces()
    ensures forall i :: 0 <= i < |"```json\n"| ==> "```json\n"[i] != '{'
    ensures forall i :: 0 <= i < |"\n```"| ==> "\n```"[i] != '}'
  {
  }

  /** The fence step's candidate for a "```json" block after backtick-free
      prose is the tagged text. */
  lemma FenceOfTaggedBlock(pre: string, body: string)
    requires forall i :: 0 <= i < |pre| ==> pre[i] != '`'
    requires |body| >= 2 && body[0] == '{' && body[|body| - 1] == '}'
    requires forall i :: 0 <= i < |body| ==> body[i] != '`'
    ensures FencedCandidate(pre + "```json\n" + body + "\n```") == Some("json\n" + body)
  {
    var inner := "json\n" + body + "\n";
    assert pre + "```json\n" + body + "\n```" == pre + Fence + inner + Fence;
    TaggedBodyNoBacktick(body);
    FenceOfBlock(pre, inner);
    TrimOfTagged(body);
  }

  /** Trimming the tagged content drops only the final line break. */
  lemma TrimOfTagged(body: string)
    requires body != [] && body[|body| - 1] == '}'
    ensures Trim("json\n" + body + "\n") == "json\n" + body
  {
    var tagged := "json\n" + body;
    assert tagged[0] == 'j' && tagged[|tagged| - 1] == '}';
    assert IsTrimmed(tagged);
    TrimOfPadded([], tagged, "\n");
    assert [] + tagged + "\n" == tagged + "\n";
  }

  /** The tagged content of a "```json" block holds no backtick when its body holds none. */
  lemma TaggedBodyNoBacktick(body: string)
    requires forall i :: 0 <= i < |body| ==> body[i] != '`'
    ensures forall i :: 0 <= i < |"json\n" + body + "\n"| ==> ("json\n" + body + "\n")[i] != '`'
  {
    var inner := "json\n" + body + "\n";
    forall i | 0 <= i < |inner|
      ensures inner[i] != '`'
    {
      if 5 <= i < 5 + |body| {
        assert inner[i] == body[i - 5];
      }
    }
  }

  /** A reply that is backtick-free prose followed by one fenced block whose
      content holds no backtick: the fence candidate is that content, trimmed. */
  lemma FenceOfBlock(pre: string, inner: string)
    requires forall i :: 0 <= i < |pre| ==> pre[i] != '`'
    requires inner != []
    requires forall i :: 0 <= i < |inner| ==> inner[i] != '`'
    ensures FencedCandidate(pre + Fence + inner + Fence) == Some(Trim(inner))
  {
    var t := pre + Fence + inner + Fence;
    var open := |pre|;
    var close := |t| - 3;
    FirstFenceAfter(t, 0, pre);
    FirstFenceAfter(t, open + 3, inner);
    assert t[open + 3..close] == inner;
  }

  /** Where backtick-free text `gap` starts at `from` and a fence follows it,
      that fence is the first one at or after `from`. */
  lemma FirstFenceAfter(t: string, from: nat, gap: string)
    requires from + |gap| + |Fence| <= |t|
    requires t[from..from + |gap| + |Fence|] == gap + Fence
    requires forall i :: 0 <= i < |gap| ==> gap[i] != '`'
    ensures IndexOfFrom(t, Fence, from) == from + |gap|
  {
    var e := from + |gap|;
    assert forall i :: from <= i < e ==> t[i] == t[from..e + 3][i - from] == gap[i - from];
    NoFenceWhereNoBacktick(t, from, e);
    assert t[e..e + 3] == t[from..e + 3][|gap|..] == Fence;
    assert OccursAt(t, Fence, e);
  }
}

=== FILE: media.dfy ===
/**
 * Media classification, transcoder selection, audio extraction and the
 * dispatch that turns an input file into the file and content type sent for
 * transcription; also the output-directory name derived from a display name.
 *
 * The content-type table (`mime-types`'s `lookup`) and the transcoder process
 * are parameters: `lookup(p)` is the content type the table gives for `p`, and
 * `exec(bin, args)` is `Some(message)` when running `bin` with `args` fails.
 */
module Media {
  import opened JsStrings
  import opened JsValues
  import opened Paths

  datatype FileType = Audio | Video | Unknown

  /** Extensions (lower case) classified as audio without consulting the content type. */
  const AudioExts: set<string> := {".mp3", ".wav", ".flac", ".aac", ".ogg", ".m4a", ".wma"}

  /** Extensions (lower case) classified as video without consulting the content type. */
  const VideoExts: set<string> := {".mp4", ".avi", ".mkv", ".mov", ".wmv", ".flv", ".webm", ".m4v"}

  /** The content type used when the table has none for the file sent. */
  const DefaultMime := "audio/mpeg"

  /** The fixed name of the extracted audio track inside the output directory. */
  const ExtractedAudioName := "extracted_audio.mp3"

  /** The first words of the error thrown for a file that is neither audio nor video. */
  const UnsupportedPrefix := "Unsupported file type"

  /** `lookup(p) || ""`: a missing content type reads as the empty string. */
  function MimeOrEmpty(m: Option<string>): string {
    if m.Some? then m.value else ""
  }

  /** `lookup(p) || "audio/mpeg"`. */
  function MimeOrDefault(m: Option<string>): (r: string)
    ensures r != []
    ensures m.Some? && m.value != [] ==> r == m.value
    ensures (m.None? || m.value == []) ==> r == DefaultMime
  {
    if m.Some? && m.value != [] then m.value else DefaultMime
  }

  /** The lower-cased extension that `detectFileType` matches against the two sets. */
  function LowerExt(p: string): string {
    ToLower(Extname(p))
  }

  /** `detectFileType(p)`: the extension decides first, then the content type's
      `audio/` or `video/` prefix; anything else is unknown. */
  function DetectFileType(p: string, lookup: string -> Option<string>): (t: FileType)
    ensures LowerExt(p) in AudioExts ==> t == Audio
    ensures LowerExt(p) in VideoExts ==> t == Video
    ensures t == Unknown <==> (LowerExt(p) !in AudioExts + VideoExts
      && !StartsWith(MimeOrEmpty(lookup(p)), "audio/") && !StartsWith(MimeOrEmpty(lookup(p)), "video/"))
  {
    var ext := LowerExt(p);
    if ext in AudioExts then Audio
    else if ext in VideoExts then Video
    else
      var mt := MimeOrEmpty(lookup(p));
      if StartsWith(mt, "audio/") then Audio
      else if StartsWith(mt, "video/") then Video
      else Unknown
  }

  /** A known extension decides the type whatever the content-type table says. */
  lemma ExtensionDecidesFirst(p: string, lookup1: string -> Option<string>, lookup2: string -> Option<string>)
    requires LowerExt(p) in AudioExts + VideoExts
    ensures DetectFileType(p, lookup1) == DetectFileType(p, lookup2)
  {
  }

  /** Without a known extension the content type decides, by its prefix. */
  lemma ContentTypeDecidesOtherwise(p: string, lookup: string -> Option<string>)
    requires LowerExt(p) !in AudioExts + VideoExts
    ensures DetectFileType(p, lookup) == Audio <==> StartsWith(MimeOrEmpty(lookup(p)), "audio/")
    ensures DetectFileType(p, lookup) == Video <==>
      !StartsWith(MimeOrEmpty(lookup(p)), "audio/") && StartsWith(MimeOrEmpty(lookup(p)), "video/")
    ensures DetectFileType(p, lookup) == Unknown <==>
      !StartsWith(MimeOrEmpty(lookup(p)), "audio/") && !StartsWith(MimeOrEmpty(lookup(p)), "video/")
  {
  }

  /** Every listed extension is one `.` followed by at least one character
      that is neither `.` nor `/`. */
  lemma ListedExtensionShape(x: string)
    requires x in AudioExts + VideoExts
    ensures |x| >= 2 && x[0] == '.'
    ensures forall i :: 1 <= i < |x| ==> x[i] != '.' && x[i] != '/'
  {
  }

  /** A file whose extension is a listed one in any mix of letter case is
      classified by that extension. */
  lemma ListedExtensionAnyCase(stem: string, ext: string, lookup: string -> Option<string>)
    requires stem != [] && stem[|stem| - 1] != '/'
    requires ToLower(ext) in AudioExts + VideoExts
    ensures ToLower(ext) in AudioExts ==> DetectFileType(stem + ext, lookup) == Audio
    ensures ToLower(ext) in VideoExts ==> DetectFileType(stem + ext, lookup) == Video
  {
    LowerExtOfListed(stem, ext);
    if ToLower(ext) in VideoExts {
      VideoExtensionNotAudio(ToLower(ext));
    }
  }

  /** The extension `detectFileType` matches for such a file is the lower-cased suffix. */
  lemma LowerExtOfListed(stem: string, ext: string)
    requires stem != [] && stem[|stem| - 1] != '/'
    requires ToLower(ext) in AudioExts + VideoExts
    ensures LowerExt(stem + ext) == ToLower(ext)
  {
    var lx := ToLower(ext);
    ListedExtensionShape(lx);
    assert ext[0] == '.' by {
      assert LowerChar(ext[0]) == '.';
    }
    forall i | 1 <= i < |ext|
      ensures ext[i] != '.' && ext[i] != '/'
    {
      assert LowerChar(ext[i]) == lx[i];
    }
    ExtnameOfSuffix(stem, ext);
  }

  /** The two extension sets do not overlap, so the order of the two tests does not matter. */
  lemma VideoExtensionNotAudio(x: string)
    requires x in VideoExts
    ensures x !in AudioExts
  {
  }

  /** `ffmpegPath()`: a non-blank `FFMPEG_PATH` override (returned as given,
      untrimmed) wins over the bundled binary; no transcoder when neither is set. */
  function FfmpegPath(override: Option<string>, bundled: Option<string>): (bin: Option<string>)
    ensures bin.Some? ==> bin.value != []
    ensures override.Some? && Trim(override.value) != [] ==> bin == override
    ensures bin.Some? && bin != override ==> bin == bundled
    ensures bin.None? <==> (override.None? || Trim(override.value) == []) && (bundled.None? || bundled.value == [])
  {
    if override.Some? && override.value != [] && Trim(override.value) != [] then override
    else if bundled.Some? && bundled.value != [] then bundled
    else None
  }

  /** An override made only of spaces is ignored. */
  lemma BlankOverrideIgnored(override: string, bundled: Option<string>)
    requires forall i :: 0 <= i < |override| ==> IsSpace(override[i])
    ensures FfmpegPath(Some(override), bundled) == FfmpegPath(None, bundled)
  {
  }

  /** The transcoder's arguments: overwrite, read the video, drop the picture,
      encode MP3 at VBR quality 2 into `out`, report errors only. */
  function FfmpegArgs(videoPath: string, out: string): (args: seq<string>)
    ensures |args| == 11 && args[0] == "-y"
    ensures args[1] == "-i" && args[2] == videoPath
    ensures args[3] == "-vn" && args[8] == out
  {
    ["-y", "-i", videoPath, "-vn", "-acodec", "libmp3lame", "-q:a", "2", out, "-loglevel", "error"]
  }

  /** `extractAudioFromVideo`: with no transcoder the video itself is used;
      otherwise the audio track is written to the fixed file name in the
      output directory, and a failed run is fatal. */
  function ExtractAudioFromVideo(videoPath: string, outputDir: string, bin: Option<string>,
                                 exec: (string, seq<string>) -> Option<string>): (r: Result<string>)
    ensures bin.None? ==> r == Ok(videoPath)
    ensures bin.Some? && r.Ok? ==> r.value == Join(outputDir, ExtractedAudioName)
    ensures bin.Some? ==> (r.Err? <==> exec(bin.value, FfmpegArgs(videoPath, Join(outputDir, ExtractedAudioName))).Some?)
  {
    if bin.None? then Ok(videoPath)
    else
      var out := Join(outputDir, ExtractedAudioName);
      var failure := exec(bin.value, FfmpegArgs(videoPath, out));
      if failure.Some? then Err(failure.value) else Ok(out)
  }

  /** What is sent for transcription: a file and its content type. */
  datatype Processed = Processed(path: string, mime: string)

  /** The message thrown for a file that is neither audio nor video. */
  function UnsupportedMessage(t: FileType): (m: string)
    ensures StartsWith(m, UnsupportedPrefix)
    ensures |m| > |UnsupportedPrefix|
  {
    var name := match t case Audio => "audio" case Video => "video" case Unknown => "unknown";
    var m := UnsupportedPrefix + ": " + name + ". Provide audio or video file.";
    assert m == UnsupportedPrefix + m[|UnsupportedPrefix|..];
    m
  }

  /** `processMediaFile`: audio is sent as it is, video through the extractor;
      the content type falls back to `audio/mpeg`; anything else is refused. */
  function ProcessMediaFile(mediaPath: string, outputDir: string, lookup: string -> Option<string>,
                            bin: Option<string>, exec: (string, seq<string>) -> Option<string>): (r: Result<Processed>)
    ensures r.Ok? ==> r.value.mime != []
    ensures r.Ok? ==> r.value.mime == MimeOrDefault(lookup(r.value.path))
    ensures r.Err? && DetectFileType(mediaPath, lookup) != Unknown ==>
      DetectFileType(mediaPath, lookup) == Video && ExtractAudioFromVideo(mediaPath, outputDir, bin, exec).Err?
  {
    match DetectFileType(mediaPath, lookup)
    case Video =>
      (match ExtractAudioFromVideo(mediaPath, outputDir, bin, exec)
       case Err(m) => Err(m)
       case Ok(audio) => Ok(Processed(audio, MimeOrDefault(lookup(audio)))))
    case Audio => Ok(Processed(mediaPath, MimeOrDefault(lookup(mediaPath))))
    case Unknown => Err(UnsupportedMessage(Unknown))
  }

  /** An audio file is sent unchanged. */
  lemma AudioSentAsIs(mediaPath: string, outputDir: string, lookup: string -> Option<string>,
                      bin: Option<string>, exec: (string, seq<string>) -> Option<string>)
    requires DetectFileType(mediaPath, lookup) == Audio
    ensures ProcessMediaFile(mediaPath, outputDir, lookup, bin, exec) == Ok(Processed(mediaPath, MimeOrDefault(lookup(mediaPath))))
  {
  }

  /** A video with no transcoder available is sent unchanged, with the video's
      own content type. */
  lemma VideoWithoutTranscoderSentAsIs(mediaPath: string, outputDir: string, lookup: string -> Option<string>,
                                       exec: (string, seq<string>) -> Option<string>)
    requires DetectFileType(mediaPath, lookup) == Video
    ensures ProcessMediaFile(mediaPath, outputDir, lookup, None, exec) == Ok(Processed(mediaPath, MimeOrDefault(lookup(mediaPath))))
  {
  }

  /** An unclassifiable file is refused with a message that starts with
      "Unsupported file type", and only such a file is refused without a
      transcoder failure. */
  lemma UnknownIsRefused(mediaPath: string, outputDir: string, lookup: string -> Option<string>,
                         bin: Option<string>, exec: (string, seq<string>) -> Option<string>)
    requires DetectFileType(mediaPath, lookup) == Unknown
    ensures ProcessMediaFile(mediaPath, outputDir, lookup, bin, exec).Err?
    ensures StartsWith(ProcessMediaFile(mediaPath, outputDir, lookup, bin, exec).message, UnsupportedPrefix)
  {
  }

  /** `createOutputDirectory`'s directory name: the display name's last
      component without its extension, hyphens and spaces turned into underscores. */
  function OutputDirName(displayName: string): (r: string)
    ensures |r| == |ParseName(displayName)|
    ensures forall i :: 0 <= i < |r| ==> r[i] == Underscored(ParseName(displayName)[i])
    ensures forall i :: 0 <= i < |r| ==> r[i] != '-' && !IsSpace(r[i])
  {
    ReplaceDashesAndSpaces(ParseName(displayName))
  }

  /** Applying the replacement again changes nothing. */
  lemma OutputDirNameStable(displayName: string)
    ensures ReplaceDashesAndSpaces(OutputDirName(displayName)) == OutputDirName(displayName)
  {
    ReplaceDashesAndSpacesIdempotent(ParseName(displayName));
  }
}

=== FILE: paths.dfy ===
/**
 * The POSIX `node:path` operations the route uses on file names:
 * `basename`, `extname`, the `name` field of `parse`, and `join`.
 */
module Paths {
  import opened JsStrings

  /** Going back from `e`: one past the last character before `e` that is not a slash. */
  function SkipSlashesBack(p: string, e: nat): (k: nat)
    requires e <= |p|
    ensures k <= e
    ensures forall i :: k <= i < e ==> p[i] == '/'
    ensures k > 0 ==> p[k - 1] != '/'
  {
    if e > 0 && p[e - 1] == '/' then SkipSlashesBack(p, e - 1) else e
  }

  /** One past the last character of the last path component, trailing
      slashes set aside; 0 when `p` holds nothing but slashes. */
  function ComponentEnd(p: string): (e: nat)
    ensures e <= |p|
    ensures forall i :: e <= i < |p| ==> p[i] == '/'
    ensures e > 0 ==> p[e - 1] != '/'
  {
    SkipSlashesBack(p, |p|)
  }

  /** Where the last component starts: one past the last slash before its end. */
  function ComponentStart(p: string): (k: nat)
    ensures k <= ComponentEnd(p)
    ensures forall i :: k <= i < ComponentEnd(p) ==> p[i] != '/'
    ensures k > 0 ==> p[k - 1] == '/'
  {
    LastIndexBefore(p, '/', ComponentEnd(p)) + 1
  }

  /** `path.basename(p)`: the last component, without any trailing slash. */
  function Basename(p: string): (b: string)
    ensures forall i :: 0 <= i < |b| ==> b[i] != '/'
  {
    p[ComponentStart(p)..ComponentEnd(p)]
  }

  /** Where the extension starts in the basename: at its last `.`, unless
      there is none, that `.` leads (a dot-file) or the basename is `..`, in
      which case there is no extension and the position is the end. */
  function ExtStart(p: string): (k: nat)
    ensures k <= |Basename(p)|
    ensures k < |Basename(p)| ==> 0 < k && Basename(p)[k] == '.'
    ensures forall i :: k < i < |Basename(p)| ==> Basename(p)[i] != '.'
  {
    var b := Basename(p);
    var d := LastIndexOf(b, '.');
    if d <= 0 || b == ".." then |b| else d
  }

  /** `path.extname(p)`: the basename from its last `.` on; empty when the
      basename has no `.`, when its only `.` leads (a dot-file) or when it is `..`. */
  function Extname(p: string): (x: string)
    ensures x == [] || (x[0] == '.' && forall i :: 1 <= i < |x| ==> x[i] != '.')
    ensures x == [] <==> LastIndexOf(Basename(p), '.') <= 0 || Basename(p) == ".."
  {
    Basename(p)[ExtStart(p)..]
  }

  /** `path.parse(p).name`: the basename with its extension removed. */
  function ParseName(p: string): (n: string)
    ensures n + Extname(p) == Basename(p)
  {
    Basename(p)[..ExtStart(p)]
  }

  /** `path.join(dir, name)` for a directory and a plain file name. */
  function Join(dir: string, name: string): (r: string)
    ensures |r| > |dir|
  {
    dir + "/" + name
  }

  /** Appending a piece without slashes to a name whose last character is
      not a slash extends its basename by that piece. */
  lemma BasenameAppend(stem: string, ext: string)
    requires stem != [] && stem[|stem| - 1] != '/'
    requires forall i :: 0 <= i < |ext| ==> ext[i] != '/'
    ensures Basename(stem + ext) == Basename(stem) + ext
  {
    var p := stem + ext;
    assert ComponentEnd(stem) == |stem|;
    assert ComponentEnd(p) == |p| by {
      assert p[|p| - 1] != '/';
    }
    assert p[..|p|] == p;
    assert stem[..|stem|] == stem;
    LastIndexOfAppend(stem, ext, '/');
    assert LastIndexOf(ext, '/') == -1;
    var ls := LastIndexOf(stem, '/');
    assert p[ls + 1..] == stem[ls + 1..] + ext;
  }

  /** A name whose last component is not empty, followed by an extension
      that is one `.` and at least one further character, none of them `.`
      or `/`, has that extension. */
  lemma ExtnameOfSuffix(stem: string, ext: string)
    requires stem != [] && stem[|stem| - 1] != '/'
    requires |ext| >= 2 && ext[0] == '.'
    requires forall i :: 1 <= i < |ext| ==> ext[i] != '.' && ext[i] != '/'
    ensures Extname(stem + ext) == ext
    ensures ParseName(stem + ext) == Basename(stem)
  {
    BasenameAppend(stem, ext);
    assert Basename(stem) != [] by {
      assert ComponentEnd(stem) == |stem|;
    }
    ExtnameOfBasename(stem + ext, Basename(stem), ext);
  }

  /** The extension of a name whose basename is a non-empty piece followed by
      a well-formed extension. */
  lemma ExtnameOfBasename(p: string, front: string, ext: string)
    requires Basename(p) == front + ext && front != []
    requires |ext| >= 2 && ext[0] == '.'
    requires forall i :: 1 <= i < |ext| ==> ext[i] != '.'
    ensures ExtStart(p) == |front|
    ensures Extname(p) == ext
  {
    var b := front + ext;
    assert LastIndexOf(ext, '.') == 0;
    LastIndexOfAppend(front, ext, '.');
    assert LastIndexOf(b, '.') == |front|;
    assert |b| >= 3;
    assert b[|front|..] == ext;
  }

  /** The last occurrence of `c` in `s + t` lies in `t` when `t` holds one. */
  lemma LastIndexOfAppend(s: string, t: string, c: char)
    ensures LastIndexOf(t, c) >= 0 ==> LastIndexOf(s + t, c) == |s| + LastIndexOf(t, c)
    ensures LastIndexOf(t, c) == -1 ==> LastIndexOf(s + t, c) == LastIndexOf(s, c)
  {
    var st := s + t;
    var k := LastIndexOf(t, c);
    if k >= 0 {
      assert st[|s| + k] == c;
    } else {
      var m := LastIndexOf(s, c);
      if m >= 0 {
        assert st[m] == c;
      }
    }
  }
}

=== FILE: pipeline.dfy ===
/**
 * The `POST` handler of the analyze route: it finds the media (an uploaded
 * file, a local path or a URL), derives the output directory, prepares the
 * audio, has it transcribed and the English text analysed, writes the three
 * artefacts and answers with a JSON reply; any thrown error becomes an error
 * reply whose status is chosen from its message.
 *
 * Everything the handler gets from outside is a field of `World`: the
 * environment, the content-type table, the transcoder, `path.resolve`, the
 * download of a remote file, `JSON.parse`, and the text of the two Gemini
 * replies (or the message of the error the call throws).  File-system writes
 * are recorded as a list of `Effect`s in the order they happen.
 */
module Pipeline {
  import opened JsStrings
  import opened JsValues
  import opened Paths
  import opened Media
  import opened JsonExtract
  import opened Transcription
  import opened Analysis
  import opened AnalysisReport

  const DefaultModel := "gemini-2.0-flash-exp"
  const NoFileError := "No file uploaded"
  const NoMediaError := "Provide either multipart 'file' upload or JSON 'media_path'/'media_url'"
  /** The error thrown when neither API key is set. */
  const MissingKeyError := "Set GOOGLE_API_KEY" + " or GEMINI_API_KEY" + " env var for" + " Gemini API"
  const NotFound := "not found"
  const RawTranscriptName := "transcription_raw.txt"
  const EnglishTranscriptName := "transcription_en.txt"
  const AnalysisReportName := "detailed_analysis.txt"

  /** `GEMINI_MODEL`: the environment's model name unless it is unset or empty. */
  function ModelName(env: Option<string>): (m: string)
    ensures m != []
    ensures env.Some? && env.value != [] ==> m == env.value
  {
    if env.Some? && env.value != [] then env.value else DefaultModel
  }

  /** What the handler depends on outside its own code. */
  datatype World = World(
    uploadBase: string,
    outputBase: string,
    modelEnv: Option<string>,
    googleKey: Option<string>,
    geminiKey: Option<string>,
    ffmpegOverride: Option<string>,
    bundledFfmpeg: Option<string>,
    lookup: string -> Option<string>,
    exec: (string, seq<string>) -> Option<string>,
    resolve: Json -> Result<string>,
    download: Json -> Result<string>,
    urlPathname: Json -> string,
    parse: string -> Option<Json>,
    transcribeReply: Processed -> Result<string>,
    analyzeReply: string -> Result<string>,
    score: Json -> real)

  /** A change the handler makes to the file system. */
  datatype Effect =
    | MakeDir(dir: string)
    | RunTranscoder(bin: string, args: seq<string>)
    | WriteText(path: string, text: string)
    | WriteReport(path: string, lines: seq<Line>)

  /** The request after its body has been read: the `file` field of a
      multipart form (its name and where it was saved), or a JSON body (`{}`
      when the body is not JSON). */
  datatype Upload = Upload(name: string, savedPath: string)
  datatype Request = Multipart(file: Option<Upload>) | JsonBody(body: Json)

  datatype Reply =
    | Success(model: string, outputDir: string, transcript: Transcript, analysis: Analysis,
              processedAudio: string, rawPath: string, englishPath: string, analysisPath: string)
    | Failure(status: int, error: string)

  datatype Outcome = Outcome(reply: Reply, effects: seq<Effect>)

  /** `makeGenAI`'s test: one of the two keys is set and not empty. */
  predicate HasApiKey(w: World) {
    (w.googleKey.Some? && w.googleKey.value != []) || (w.geminiKey.Some? && w.geminiKey.value != [])
  }

  /** `e?.message || String(e)` for an `Error` whose message is `m`. */
  function ErrorText(m: string): (t: string)
    ensures t != []
    ensures m != [] ==> t == m
  {
    if m == [] then "Error" else m
  }

  /** The status of an error reply: 400 for an unsupported file, else 404
      when the message says something was not found, else 500. */
  function StatusFor(msg: string): (status: int)
    ensures status == 400 <==> Includes(msg, UnsupportedPrefix)
    ensures status == 404 <==> !Includes(msg, UnsupportedPrefix) && Includes(msg, NotFound)
    ensures status == 500 <==> !Includes(msg, UnsupportedPrefix) && !Includes(msg, NotFound)
  {
    if Includes(msg, UnsupportedPrefix) then 400
    else if Includes(msg, NotFound) then 404
    else 500
  }

  /** The reply for an error thrown with message `m`. */
  function Fail(m: string): (r: Reply)
    ensures r.Failure? && r.status in {400, 404, 500} && r.error != []
  {
    Failure(StatusFor(ErrorText(m)), ErrorText(m))
  }

  /** The error message of an unsupported file selects status 400. */
  lemma UnsupportedStatus(t: FileType)
    ensures Fail(UnsupportedMessage(t)) == Failure(400, UnsupportedMessage(t))
  {
    var m := UnsupportedMessage(t);
    assert m == UnsupportedPrefix + m[|UnsupportedPrefix|..];
    IncludesPrefix(UnsupportedPrefix, m[|UnsupportedPrefix|..]);
  }

  /** No character of `s` is `c`. */
  predicate Lacks(s: string, c: char) {
    forall i :: 0 <= i < |s| ==> s[i] != c
  }

  /** A string cannot include a pattern holding a character it lacks. */
  lemma LacksExcludes(s: string, p: string, k: nat)
    requires k < |p| && Lacks(s, p[k])
    ensures !Includes(s, p)
  {
    forall j
      ensures !OccursAt(s, p, j)
    {
      if OccursAt(s, p, j) {
        OccurrenceHolds(s, p, j, k);
      }
    }
  }

  /** An occurrence of `p` at `j` puts `p[k]` at `j + k`. */
  lemma OccurrenceHolds(s: string, p: string, j: int, k: nat)
    requires OccursAt(s, p, j) && k < |p|
    ensures s[j + k] == p[k]
  {
    assert s[j..j + |p|][k] == s[j + k];
  }

  /** Two strings that lack `c` make a string that lacks it. */
  lemma LacksAppend(a: string, b: string, c: char)
    requires Lacks(a, c) && Lacks(b, c)
    ensures Lacks(a + b, c)
  {
  }

  /** The missing-key message holds neither a `U` nor a `d`, so it mentions
      neither an unsupported file type nor something not found. */
  lemma MissingKeyLetters()
    ensures Lacks(MissingKeyError, 'U') && Lacks(MissingKeyError, 'd')
  {
    var a, b, c, d := "Set GOOGLE_API_KEY", " or GEMINI_API_KEY", " env var for", " Gemini API";
    assert Lacks(a, 'U') && Lacks(a, 'd');
    assert Lacks(b, 'U') && Lacks(b, 'd');
    assert Lacks(c, 'U') && Lacks(c, 'd');
    assert Lacks(d, 'U') && Lacks(d, 'd');
    LacksAppend(a, b, 'U');
    LacksAppend(a + b, c, 'U');
    LacksAppend(a + b + c, d, 'U');
    LacksAppend(a, b, 'd');
    LacksAppend(a + b, c, 'd');
    LacksAppend(a + b + c, d, 'd');
  }

  /** The error for a missing key is answered with status 500. */
  lemma MissingKeyStatus()
    ensures Fail(MissingKeyError) == Failure(500, MissingKeyError)
  {
    MissingKeyLetters();
    assert UnsupportedPrefix[0] == 'U';
    LacksExcludes(MissingKeyError, UnsupportedPrefix, 0);
    assert NotFound[8] == 'd';
    LacksExcludes(MissingKeyError, NotFound, 8);
  }

  /** `safeJsonParse(text || "{}")`. */
  function ParseReply(text: string, parse: string -> Option<Json>): (r: Json)
    ensures text != [] ==> r == SafeJsonParse(text, parse)
    ensures text == [] ==> r == SafeJsonParse("{}", parse)
  {
    SafeJsonParse(if text == [] then "{}" else text, parse)
  }

  /** An empty reply reads as `{}` when `JSON.parse` reads "{}" as the empty object. */
  lemma EmptyReplyIsEmptyObject(parse: string -> Option<Json>)
    requires parse("{}") == Some(EmptyObject)
    ensures ParseReply("", parse) == EmptyObject
  {
    assert !IsSpace('{') && !IsSpace('}');
    assert IsTrimmed("{}");
  }

  /** `geminiTranscribe` up to its file writes: the key check, the reply, and
      the normalisation of the parsed reply. */
  function Transcribe(proc: Processed, w: World): (r: Result<Transcript>)
    ensures !HasApiKey(w) ==> r == Err(MissingKeyError)
    ensures HasApiKey(w) && w.transcribeReply(proc).Err? ==> r == Err(w.transcribeReply(proc).message)
    ensures r.Ok? ==> IsTrimmed(r.value.rawTranscription) && IsTrimmed(r.value.translatedTranscription)
    ensures r.Ok? ==> (HasApiKey(w) && w.transcribeReply(proc).Ok?
                       && NormalizeTranscription(ParseReply(w.transcribeReply(proc).value, w.parse)) == r)
  {
    if !HasApiKey(w) then Err(MissingKeyError)
    else
      match w.transcribeReply(proc)
      case Err(m) => Err(m)
      case Ok(text) => NormalizeTranscription(ParseReply(text, w.parse))
  }

  /** `geminiAnalyze` up to its file write: the truncation, the key check,
      the reply, the defaulting and the report's lines. */
  function Analyze(english: string, w: World): (r: Result<(Analysis, seq<Line>)>)
    ensures !HasApiKey(w) ==> r == Err(MissingKeyError)
    ensures r.Ok? ==> ReportReady(r.value.0) && Report(r.value.0, w.score) == Ok(r.value.1)
    ensures var analysed := AnalysisText(english);
      HasApiKey(w) && w.analyzeReply(analysed).Err? ==> r == Err(w.analyzeReply(analysed).message)
    ensures var analysed := AnalysisText(english);
      r.Ok? ==> (HasApiKey(w) && w.analyzeReply(analysed).Ok?
                 && NormalizeAnalysis(ParseReply(w.analyzeReply(analysed).value, w.parse), analysed) == Ok(r.value.0))
  {
    var analysed := AnalysisText(english);
    if !HasApiKey(w) then Err(MissingKeyError)
    else
      match w.analyzeReply(analysed)
      case Err(m) => Err(m)
      case Ok(text) =>
        match NormalizeAnalysis(ParseReply(text, w.parse), analysed)
        case Err(m) => Err(m)
        case Ok(a) =>
          match Report(a, w.score)
          case Err(m) => Err(m)
          case Ok(lines) => Ok((a, lines))
  }

  /** Where the media came from, or why the handler stopped before using it:
      a 400 reply (`Refused`) or a thrown error (`Threw`). */
  datatype Resolved = Media(mediaPath: string, displayName: string) | Refused(error: string) | Threw(message: string)

  /** The member `k` of a JSON body; `body?.k` reads nothing from `null`. */
  function BodyField(body: Json, k: string): Option<Json> {
    if body == JNull then None else Prop(body, k)
  }

  /** A field that is present and truthy. */
  predicate Given(x: Option<Json>) {
    x.Some? && Truthy(x.value)
  }

  /** The first branch of the handler: the uploaded file, else the body's
      `media_path` resolved, else its `media_url` downloaded; the display name
      is the file's name, the path's basename, or the basename of the URL's
      path (that of the downloaded file when it is empty). */
  function ResolveMedia(req: Request, w: World): (r: Resolved)
    ensures req.Multipart? ==> (r.Refused? <==> req.file.None? || req.file.value.name == [])
    ensures req.Multipart? && r.Media? ==> r == Media(req.file.value.savedPath, req.file.value.name)
    ensures req.JsonBody? ==>
      (r.Refused? <==> (!Given(BodyField(req.body, "media_path")) && !Given(BodyField(req.body, "media_url"))))
    ensures r.Refused? ==> r.error in {NoFileError, NoMediaError}
  {
    match req
    case Multipart(file) =>
      if file.None? || file.value.name == [] then Refused(NoFileError)
      else Media(file.value.savedPath, file.value.name)
    case JsonBody(body) =>
      var inputPath := BodyField(body, "media_path");
      var mediaUrl := BodyField(body, "media_url");
      if Given(inputPath) then
        match w.resolve(inputPath.value)
        case Err(m) => Threw(m)
        case Ok(p) => Media(p, Basename(p))
      else if Given(mediaUrl) then
        match w.download(mediaUrl.value)
        case Err(m) => Threw(m)
        case Ok(p) =>
          var fromUrl := Basename(w.urlPathname(mediaUrl.value));
          Media(p, if fromUrl != [] then fromUrl else Basename(p))
      else Refused(NoMediaError)
  }

  /** `createOutputDirectory`'s directory. */
  function OutputDir(base: string, displayName: string): (r: string)
    ensures |r| > |base| && r[..|base| + 1] == base + "/"
    ensures forall i :: |base| < i < |r| ==> r[i] != '-' && !IsSpace(r[i])
  {
    Join(base, OutputDirName(displayName))
  }

  /** What `processMediaFile` does to the file system, if anything: only for
      a video, and only when a transcoder is available, the output directory
      is made again and the transcoder is run on the video. */
  function TranscoderRuns(mediaPath: string, outputDir: string, lookup: string -> Option<string>,
                          bin: Option<string>): (fx: seq<Effect>)
    ensures fx != [] <==> DetectFileType(mediaPath, lookup) == Video && bin.Some?
    ensures fx != [] ==> fx[|fx| - 1] == RunTranscoder(bin.value, FfmpegArgs(mediaPath, Join(outputDir, ExtractedAudioName)))
  {
    if DetectFileType(mediaPath, lookup) == Video && bin.Some? then
      [MakeDir(outputDir), RunTranscoder(bin.value, FfmpegArgs(mediaPath, Join(outputDir, ExtractedAudioName)))]
    else []
  }

  /** Everything after the media has been found, appending to the effect log
      `log`: the output directory is made, the audio prepared (running the
      transcoder for a video when one is available), then transcription and
      analysis follow. */
  function Process(mediaPath: string, displayName: string, w: World, log: seq<Effect>): (o: Outcome)
    ensures o.reply.Failure? ==> o.reply.status in {400, 404, 500}
  {
    var outDir := OutputDir(w.outputBase, displayName);
    var bin := FfmpegPath(w.ffmpegOverride, w.bundledFfmpeg);
    var prepared := log + [MakeDir(outDir)] + TranscoderRuns(mediaPath, outDir, w.lookup, bin);
    match ProcessMediaFile(mediaPath, outDir, w.lookup, bin, w.exec)
    case Err(m) => Outcome(Fail(m), prepared)
    case Ok(proc) => AfterProcessing(proc, outDir, w, prepared)
  }

  /** Transcription of the prepared audio; its two texts are written to the
      output directory before the analysis starts. */
  function AfterProcessing(proc: Processed, outDir: string, w: World, log: seq<Effect>): (o: Outcome)
    ensures o.reply.Failure? ==> o.reply.status in {400, 404, 500}
    ensures Transcribe(proc, w).Err? ==> o == Outcome(Fail(Transcribe(proc, w).message), log)
  {
    match Transcribe(proc, w)
    case Err(m) => Outcome(Fail(m), log)
    case Ok(t) =>
      var rawWritten := log + [WriteText(Join(outDir, RawTranscriptName), t.rawTranscription)];
      AfterTranscription(t, proc, outDir, w,
                         rawWritten + [WriteText(Join(outDir, EnglishTranscriptName), t.translatedTranscription)])
  }

  /** Analysis of the English text; on success the report is written last
      and the reply lists the artefacts. */
  function AfterTranscription(t: Transcript, proc: Processed, outDir: string, w: World, log: seq<Effect>)
    : (o: Outcome)
    ensures o.reply.Failure? ==> o.reply.status in {400, 404, 500}
    ensures Analyze(t.translatedTranscription, w).Err? ==> o == Outcome(Fail(Analyze(t.translatedTranscription, w).message), log)
    ensures Analyze(t.translatedTranscription, w).Ok? ==>
      o.reply.Success? && o.reply.transcript == t && o.reply.processedAudio == proc.path
      && o.reply.outputDir == outDir
      && o.reply.rawPath == Join(outDir, RawTranscriptName)
      && o.reply.englishPath == Join(outDir, EnglishTranscriptName)
      && o.reply.analysisPath == Join(outDir, AnalysisReportName)
      && o.effects == log + [WriteReport(o.reply.analysisPath, Analyze(t.translatedTranscription, w).value.1)]
      && Report(o.reply.analysis, w.score) == Ok(Analyze(t.translatedTranscription, w).value.1)
  {
    match Analyze(t.translatedTranscription, w)
    case Err(m) => Outcome(Fail(m), log)
    case Ok(result) =>
      var reportPath := Join(outDir, AnalysisReportName);
      Outcome(Success(ModelName(w.modelEnv), outDir, t, result.0, proc.path,
                      Join(outDir, RawTranscriptName), Join(outDir, EnglishTranscriptName), reportPath),
              log + [WriteReport(reportPath, result.1)])
  }

  /** `ensureDirs`. */
  function EnsureDirs(w: World): seq<Effect> {
    [MakeDir(w.uploadBase), MakeDir(w.outputBase)]
  }

  /** The whole handler: the base directories are made first; a request
      without media is refused with 400 before anything else happens. */
  function Handle(req: Request, w: World): (o: Outcome)
    ensures o.reply.Failure? ==> o.reply.status in {400, 404, 500}
    ensures ResolveMedia(req, w).Refused? ==>
      o == Outcome(Failure(400, ResolveMedia(req, w).error), EnsureDirs(w))
    ensures ResolveMedia(req, w).Threw? ==> o == Outcome(Fail(ResolveMedia(req, w).message), EnsureDirs(w))
    ensures ResolveMedia(req, w).Media? ==>
      o == Process(ResolveMedia(req, w).mediaPath, ResolveMedia(req, w).displayName, w, EnsureDirs(w))
  {
    match ResolveMedia(req, w)
    case Refused(e) => Outcome(Failure(400, e), EnsureDirs(w))
    case Threw(m) => Outcome(Fail(m), EnsureDirs(w))
    case Media(p, d) => Process(p, d, w, EnsureDirs(w))
  }

  /** The handler as the source writes it: the locals `mediaPath`,
      `displayName` and `uploadedMime` are set by whichever branch finds the
      media, the effects are appended as they happen, and each step that
      fails ends the handler with an error reply. */
  method Post(req: Request, w: World) returns (out: Outcome)
    ensures out == Handle(req, w)
  {
    var effects := EnsureDirs(w);
    var mediaPath := "";
    var displayName := "";
    var uploadedMime := "";
    if req.Multipart? {
      var file := req.file;
      if file.None? || file.value.name == [] {
        return Outcome(Failure(400, NoFileError), effects);
      }
      mediaPath := file.value.savedPath;
      displayName := file.value.name;
      uploadedMime := MimeOrEmpty(w.lookup(file.value.name));
    } else {
      var inputPath := BodyField(req.body, "media_path");
      var mediaUrl := BodyField(req.body, "media_url");
      if Given(inputPath) {
        var resolved := w.resolve(inputPath.value);
        if resolved.Err? {
          return Outcome(Fail(resolved.message), effects);
        }
        mediaPath := resolved.value;
        displayName := Basename(mediaPath);
      } else if Given(mediaUrl) {
        var downloaded := w.download(mediaUrl.value);
        if downloaded.Err? {
          return Outcome(Fail(downloaded.message), effects);
        }
        mediaPath := downloaded.value;
        displayName := Basename(w.urlPathname(mediaUrl.value));
        if displayName == [] {
          displayName := Basename(mediaPath);
        }
      } else {
        return Outcome(Failure(400, NoMediaError), effects);
      }
    }
    assert ResolveMedia(req, w) == Media(mediaPath, displayName);
    out := ProcessStep(mediaPath, displayName, w, effects);
  }

  /** `createOutputDirectory` and `processMediaFile` as the handler runs them. */
  method ProcessStep(mediaPath: string, displayName: string, w: World, log: seq<Effect>) returns (out: Outcome)
    ensures out == Process(mediaPath, displayName, w, log)
  {
    var outDir := OutputDir(w.outputBase, displayName);
    var effects := log + [MakeDir(outDir)];
    var bin := FfmpegPath(w.ffmpegOverride, w.bundledFfmpeg);
    effects := effects + TranscoderRuns(mediaPath, outDir, w.lookup, bin);
    var processed := ProcessMediaFile(mediaPath, outDir, w.lookup, bin, w.exec);
    if processed.Err? {
      return Outcome(Fail(processed.message), effects);
    }
    out := TranscribeStep(processed.value, outDir, w, effects);
  }

  /** `geminiTranscribe` as the handler runs it: the two transcript files are
      written one after the other. */
  method TranscribeStep(proc: Processed, outDir: string, w: World, log: seq<Effect>) returns (out: Outcome)
    ensures out == AfterProcessing(proc, outDir, w, log)
  {
    var transcription := Transcribe(proc, w);
    if transcription.Err? {
      return Outcome(Fail(transcription.message), log);
    }
    var t := transcription.value;
    var effects := log + [WriteText(Join(outDir, RawTranscriptName), t.rawTranscription)];
    effects := effects + [WriteText(Join(outDir, EnglishTranscriptName), t.translatedTranscription)];
    out := AnalyzeStep(t, proc, outDir, w, effects);
  }

  /** `geminiAnalyze` and the success reply. */
  method AnalyzeStep(t: Transcript, proc: Processed, outDir: string, w: World, log: seq<Effect>)
    returns (out: Outcome)
    ensures out == AfterTranscription(t, proc, outDir, w, log)
  {
    var analysis := Analyze(t.translatedTranscription, w);
    if analysis.Err? {
      return Outcome(Fail(analysis.message), log);
    }
    var reportPath := Join(outDir, AnalysisReportName);
    var effects := log + [WriteReport(reportPath, analysis.value.1)];
    out := Outcome(Success(ModelName(w.modelEnv), outDir, t, analysis.value.0, proc.path,
                           Join(outDir, RawTranscriptName), Join(outDir, EnglishTranscriptName), reportPath),
                   effects);
  }

  /** A file that is neither audio nor video is refused with 400 after only
      the directories have been made: nothing is transcribed or written. */
  lemma UnsupportedFileRefused(req: Request, w: World)
    requires ResolveMedia(req, w).Media?
    requires DetectFileType(ResolveMedia(req, w).mediaPath, w.lookup) == Unknown
    ensures Handle(req, w)
         == Outcome(Failure(400, UnsupportedMessage(Unknown)),
                    EnsureDirs(w) + [MakeDir(OutputDir(w.outputBase, ResolveMedia(req, w).displayName))])
  {
    UnsupportedStatus(Unknown);
    var p := ResolveMedia(req, w).mediaPath;
    var d := ResolveMedia(req, w).displayName;
    var bin := FfmpegPath(w.ffmpegOverride, w.bundledFfmpeg);
    assert TranscoderRuns(p, OutputDir(w.outputBase, d), w.lookup, bin) == [];
    assert EnsureDirs(w) + [MakeDir(OutputDir(w.outputBase, d))] + [] == EnsureDirs(w) + [MakeDir(OutputDir(w.outputBase, d))];
  }

  /** Without an API key, media that could be prepared is answered with
      status 500 and the missing-key message once the output directory is
      made and the transcoder (if any) has run: no transcript or report is
      written. */
  lemma MissingKeyRefused(mediaPath: string, displayName: string, w: World, log: seq<Effect>)
    requires !HasApiKey(w)
    requires ProcessMediaFile(mediaPath, OutputDir(w.outputBase, displayName), w.lookup,
                              FfmpegPath(w.ffmpegOverride, w.bundledFfmpeg), w.exec).Ok?
    ensures var outDir := OutputDir(w.outputBase, displayName);
      Process(mediaPath, displayName, w, log)
        == Outcome(Failure(500, MissingKeyError),
                   log + [MakeDir(outDir)]
                   + TranscoderRuns(mediaPath, outDir, w.lookup, FfmpegPath(w.ffmpegOverride, w.bundledFfmpeg)))
  {
    MissingKeyStatus();
  }

  /** What `processMediaFile` sends on: the extracted track for a video when
      a transcoder is available, the input itself otherwise. */
  lemma ProcessedAudioPath(mediaPath: string, outputDir: string, lookup: string -> Option<string>,
                           bin: Option<string>, exec: (string, seq<string>) -> Option<string>)
    requires ProcessMediaFile(mediaPath, outputDir, lookup, bin, exec).Ok?
    ensures ProcessMediaFile(mediaPath, outputDir, lookup, bin, exec).value.path
         == if DetectFileType(mediaPath, lookup) == Video && bin.Some?
            then Join(outputDir, ExtractedAudioName)
            else mediaPath
  {
  }

  /** After the audio is prepared, a successful run appends exactly three
      writes: the raw transcript, the English transcript and the report
      rendered from the reply's analysis, in that order. */
  lemma SuccessAfterProcessing(proc: Processed, outDir: string, w: World, log: seq<Effect>)
    requires AfterProcessing(proc, outDir, w, log).reply.Success?
    ensures var o := AfterProcessing(proc, outDir, w, log);
      o.reply.outputDir == outDir && o.reply.processedAudio == proc.path
      && Report(o.reply.analysis, w.score).Ok?
      && o.effects == log + [WriteText(Join(outDir, RawTranscriptName), o.reply.transcript.rawTranscription)]
                          + [WriteText(Join(outDir, EnglishTranscriptName), o.reply.transcript.translatedTranscription)]
                          + [WriteReport(Join(outDir, AnalysisReportName), Report(o.reply.analysis, w.score).value)]
  {
    var t := Transcribe(proc, w).value;
    var rawWritten := log + [WriteText(Join(outDir, RawTranscriptName), t.rawTranscription)];
    var written := rawWritten + [WriteText(Join(outDir, EnglishTranscriptName), t.translatedTranscription)];
    assert AfterProcessing(proc, outDir, w, log) == AfterTranscription(t, proc, outDir, w, written);
  }

  /** A successful run ends by writing the raw transcript, the English
      transcript and the report, in that order, into the output directory;
      the report holds the lines rendered from the reply's analysis, and the
      audio sent for transcription is the extracted track for a video with a
      transcoder, the input itself otherwise. */
  lemma SuccessfulRun(mediaPath: string, displayName: string, w: World, log: seq<Effect>)
    requires Process(mediaPath, displayName, w, log).reply.Success?
    ensures var o := Process(mediaPath, displayName, w, log);
      var outDir := OutputDir(w.outputBase, displayName);
      o.reply.outputDir == outDir
      && Report(o.reply.analysis, w.score).Ok?
      && |o.effects| >= 3
      && o.effects[|o.effects| - 3] == WriteText(Join(outDir, RawTranscriptName), o.reply.transcript.rawTranscription)
      && o.effects[|o.effects| - 2] == WriteText(Join(outDir, EnglishTranscriptName), o.reply.transcript.translatedTranscription)
      && o.effects[|o.effects| - 1] == WriteReport(Join(outDir, AnalysisReportName), Report(o.reply.analysis, w.score).value)
      && o.reply.processedAudio
         == if DetectFileType(mediaPath, w.lookup) == Video && FfmpegPath(w.ffmpegOverride, w.bundledFfmpeg).Some?
            then Join(outDir, ExtractedAudioName)
            else mediaPath
  {
    var outDir := OutputDir(w.outputBase, displayName);
    var bin := FfmpegPath(w.ffmpegOverride, w.bundledFfmpeg);
    var proc, prepared := ProcessedThenTranscribed(mediaPath, displayName, w, log);
    var o := AfterProcessing(proc, outDir, w, prepared);
    SuccessAfterProcessing(proc, outDir, w, prepared);
    ProcessedAudioPath(mediaPath, outDir, w.lookup, bin, w.exec);
    LastThree(o.effects, prepared, o.effects[|o.effects| - 3], o.effects[|o.effects| - 2], o.effects[|o.effects| - 1]);
  }

  /** A run that gets past the media processing continues with the processed
      audio and the log of the preparation. */
  lemma ProcessedThenTranscribed(mediaPath: string, displayName: string, w: World, log: seq<Effect>)
    returns (proc: Processed, prepared: seq<Effect>)
    requires Process(mediaPath, displayName, w, log).reply.Success?
    ensures var outDir := OutputDir(w.outputBase, displayName);
      var bin := FfmpegPath(w.ffmpegOverride, w.bundledFfmpeg);
      ProcessMediaFile(mediaPath, outDir, w.lookup, bin, w.exec) == Ok(proc)
      && Process(mediaPath, displayName, w, log) == AfterProcessing(proc, outDir, w, prepared)
  {
    var outDir := OutputDir(w.outputBase, displayName);
    var bin := FfmpegPath(w.ffmpegOverride, w.bundledFfmpeg);
    prepared := log + [MakeDir(outDir)] + TranscoderRuns(mediaPath, outDir, w.lookup, bin);
    proc := ProcessMediaFile(mediaPath, outDir, w.lookup, bin, w.exec).value;
  }

  /** The last three elements of a log that grew by three. */
  lemma LastThree(s: seq<Effect>, pre: seq<Effect>, a: Effect, b: Effect, c: Effect)
    requires s == pre + [a] + [b] + [c]
    ensures |s| >= 3 && s[|s| - 3] == a && s[|s| - 2] == b && s[|s| - 1] == c
  {
  }

  /** The output directory sits in the output base, under a name holding no
      hyphen and no space. */
  lemma OutputDirShape(base: string, displayName: string)
    ensures var name := OutputDirName(displayName);
      OutputDir(base, displayName) == base + "/" + name
      && forall i :: 0 <= i < |name| ==> name[i] != '-' && !IsSpace(name[i])
  {
  }
}

=== FILE: report.dfy ===
/**
 * The text report `geminiAnalyze` writes to `detailed_analysis.txt`: a list of
 * lines built with `push`, in four sections (emotion, sentiment, intent,
 * summary) under a title banner.  Lines that show a value are kept symbolic
 * (the value and which label it carries); the percentage and upper-case
 * formatting of those values is not modelled.
 */
module AnalysisReport {
  import opened JsValues
  import opened Sorting
  import opened Analysis

  /** One line of the report. */
  datatype Line =
    | Text(s: string)
    | DominantEmotion(emotion: Json, confidence: Json)
    | Score(key: string, value: Json)
    | OverallSentiment(sentiment: Json, confidence: Json)
    | PrimaryIntent(intent: Json, confidence: Json)
    | SecondaryIntents(intents: seq<Json>)
    | ContentType(contentType: Json)
    | Summary(summary: Json)
    | KeyTopics(topics: seq<Json>)

  /** `c.repeat(n)`. */
  function Repeat(c: char, n: nat): (r: string)
    ensures |r| == n && forall i :: 0 <= i < n ==> r[i] == c
  {
    seq(n, _ => c)
  }

  const Width := 70
  const Title := "COMPREHENSIVE MEDIA ANALYSIS (Gemini)"
  const EmotionHeading := "EMOTIONAL ANALYSIS"
  const SentimentHeading := "SENTIMENT ANALYSIS"
  const IntentHeading := "INTENT CLASSIFICATION"
  const SummaryHeading := "CONTENT SUMMARY"

  /** The TypeError `Object.entries` throws for `null`. */
  const NullToObjectError := "Cannot convert undefined or null to object"

  /** One `  key: value` line per entry, in the given order. */
  function ScoreLines(es: seq<Entry>): (ls: seq<Line>)
    ensures |ls| == |es| && forall i :: 0 <= i < |es| ==> ls[i] == Score(es[i].0, es[i].1)
  {
    seq(|es|, i requires 0 <= i < |es| => Score(es[i].0, es[i].1))
  }

  /** `Object.entries(v)`, which throws for `null`. */
  function EntriesOf(v: Json): (r: Result<seq<Entry>>)
    ensures r.Err? <==> v == JNull
  {
    if v == JNull then Err(NullToObjectError) else Ok(Entries(v))
  }

  /** `if (v?.length) v.join(", ")`: nothing when the length is falsy, the
      items of an array, and a TypeError for anything else with a truthy length. */
  function ListToJoin(v: Json, expr: string): (r: Result<Option<seq<Json>>>)
    ensures r.Err? <==> HasLength(v) && !v.JArr?
    ensures r == Ok(None) <==> !HasLength(v)
    ensures r.Ok? && r.value.Some? ==> v.JArr? && r.value.value == v.items && v.items != []
  {
    HasLengthCases(v);
    if !HasLength(v) then Ok(None)
    else if v.JArr? then Ok(Some(v.items))
    else Err(expr + ".join is not a function")
  }

  /** The report throws exactly when a map it lists is `null` or a list it
      joins has a truthy length without being an array. */
  predicate ReportThrows(a: Analysis) {
    a.emotionScores == JNull || a.sentimentBreakdown == JNull || a.intentScores == JNull
    || (HasLength(a.secondaryIntents) && !a.secondaryIntents.JArr?)
    || (HasLength(a.keyTopics) && !a.keyTopics.JArr?)
  }

  function Header(): (h: seq<Line>)
    ensures |h| == 4 && h[1] == Text(Title) && h[3] == Text("")
    ensures h[0] == h[2] && h[0].Text? && |h[0].s| == Width && forall i :: 0 <= i < Width ==> h[0].s[i] == '='
  {
    [Text(Repeat('=', Width)), Text(Title), Text(Repeat('=', Width)), Text("")]
  }

  function EmotionSection(a: Analysis, emotions: seq<Entry>): (ls: seq<Line>)
    ensures |ls| == 5 + |emotions| && ls[0] == Text(EmotionHeading) && ls[1] == Text(Repeat('-', Width))
    ensures ls[2] == DominantEmotion(a.dominantEmotion, a.emotionConfidence)
    ensures ls[4] == Text("Emotion Scores:") && ls[5..] == ScoreLines(emotions)
  {
    [Text(EmotionHeading), Text(Repeat('-', Width)),
     DominantEmotion(a.dominantEmotion, a.emotionConfidence), Text(""), Text("Emotion Scores:")]
    + ScoreLines(emotions)
  }

  function SentimentSection(a: Analysis, breakdown: seq<Entry>): (ls: seq<Line>)
    ensures |ls| == 7 + |breakdown| && ls[0] == Text("")
    ensures ls[2] == Text(SentimentHeading) && ls[3] == Text(Repeat('-', Width))
    ensures ls[4] == OverallSentiment(a.overallSentiment, a.sentimentConfidence)
    ensures ls[6] == Text("Sentiment Breakdown:") && ls[7..] == ScoreLines(breakdown)
  {
    [Text(""), Text(""), Text(SentimentHeading), Text(Repeat('-', Width)),
     OverallSentiment(a.overallSentiment, a.sentimentConfidence), Text(""), Text("Sentiment Breakdown:")]
    + ScoreLines(breakdown)
  }

  function IntentSection(a: Analysis, secondary: Option<seq<Json>>, intents: seq<Entry>): (ls: seq<Line>)
    ensures |ls| == (if secondary.Some? then 8 else 7) + |intents|
    ensures ls[2] == Text(IntentHeading) && ls[3] == Text(Repeat('-', Width))
    ensures ls[4] == PrimaryIntent(a.primaryIntent, a.intentConfidence)
    ensures secondary.Some? ==> ls[5] == SecondaryIntents(secondary.value)
    ensures ls[|ls| - |intents| - 1] == Text("Intent Scores:") && ls[|ls| - |intents|..] == ScoreLines(intents)
  {
    [Text(""), Text(""), Text(IntentHeading), Text(Repeat('-', Width)),
     PrimaryIntent(a.primaryIntent, a.intentConfidence)]
    + (if secondary.Some? then [SecondaryIntents(secondary.value)] else [])
    + [Text(""), Text("Intent Scores:")]
    + ScoreLines(intents)
  }

  function SummarySection(a: Analysis, topics: Option<seq<Json>>): (ls: seq<Line>)
    ensures |ls| == (if topics.Some? then 9 else 8) && ls[0] == Text("")
    ensures ls[2] == Text(SummaryHeading) && ls[3] == Text(Repeat('-', Width))
    ensures ls[4] == ContentType(a.contentType) && ls[6] == Summary(a.summary)
    ensures topics.Some? ==> ls[8] == KeyTopics(topics.value)
  {
    [Text(""), Text(""), Text(SummaryHeading), Text(Repeat('-', Width)),
     ContentType(a.contentType), Text(""), Summary(a.summary), Text("")]
    + (if topics.Some? then [KeyTopics(topics.value)] else [])
  }

  /** The report's lines: emotion scores and intent scores sorted by score,
      the sentiment breakdown in its own order, and the two optional list
      lines; the steps that can throw are taken in the source's order. */
  function Report(a: Analysis, score: Json -> real): (r: Result<seq<Line>>)
    ensures r.Err? <==> ReportThrows(a)
  {
    match EntriesOf(a.emotionScores)
    case Err(m) => Err(m)
    case Ok(emotions) =>
      match EntriesOf(a.sentimentBreakdown)
      case Err(m) => Err(m)
      case Ok(breakdown) =>
        match ListToJoin(a.secondaryIntents, "analysis.secondary_intents")
        case Err(m) => Err(m)
        case Ok(secondary) =>
          match EntriesOf(a.intentScores)
          case Err(m) => Err(m)
          case Ok(intents) =>
            match ListToJoin(a.keyTopics, "analysis.key_topics")
            case Err(m) => Err(m)
            case Ok(topics) =>
              Ok(Header() + EmotionSection(a, SortByScore(emotions, score))
                 + SentimentSection(a, breakdown)
                 + IntentSection(a, secondary, SortByScore(intents, score))
                 + SummarySection(a, topics))
  }

  /** The `forEach` that pushes one score line per entry. */
  method PushScoreLines(lines: seq<Line>, es: seq<Entry>) returns (out: seq<Line>)
    ensures out == lines + ScoreLines(es)
  {
    out := lines;
    for i := 0 to |es|
      invariant out == lines + ScoreLines(es[..i])
    {
      assert ScoreLines(es[..i + 1]) == ScoreLines(es[..i]) + [Score(es[i].0, es[i].1)];
      out := out + [Score(es[i].0, es[i].1)];
    }
    assert es[..|es|] == es;
  }

  /** The source's sequence of `push` calls, section by section; a step that
      throws abandons the lines pushed so far. */
  method BuildReport(a: Analysis, score: Json -> real) returns (r: Result<seq<Line>>)
    ensures r == Report(a, score)
  {
    var lines: seq<Line> := [];
    lines := lines + [Text(Repeat('=', Width))];
    lines := lines + [Text(Title)];
    lines := lines + [Text(Repeat('=', Width)), Text("")];
    assert lines == Header();
    if a.emotionScores == JNull {
      return Err(NullToObjectError);
    }
    var emotions := SortByScore(Entries(a.emotionScores), score);
    lines := PushEmotionSection(lines, a, emotions);
    if a.sentimentBreakdown == JNull {
      return Err(NullToObjectError);
    }
    var breakdown := Entries(a.sentimentBreakdown);
    lines := PushSentimentSection(lines, a, breakdown);
    var secondary := ListToJoin(a.secondaryIntents, "analysis.secondary_intents");
    if secondary.Err? {
      return Err(secondary.message);
    }
    if a.intentScores == JNull {
      return Err(NullToObjectError);
    }
    var intents := SortByScore(Entries(a.intentScores), score);
    lines := PushIntentSection(lines, a, secondary.value, intents);
    var topics := ListToJoin(a.keyTopics, "analysis.key_topics");
    if topics.Err? {
      return Err(topics.message);
    }
    lines := PushSummarySection(lines, a, topics.value);
    r := Ok(lines);
  }

  method PushEmotionSection(lines: seq<Line>, a: Analysis, emotions: seq<Entry>) returns (out: seq<Line>)
    ensures out == lines + EmotionSection(a, emotions)
  {
    out := lines + [Text(EmotionHeading)];
    out := out + [Text(Repeat('-', Width))];
    out := out + [DominantEmotion(a.dominantEmotion, a.emotionConfidence), Text("")];
    out := out + [Text("Emotion Scores:")];
    out := PushScoreLines(out, emotions);
  }

  method PushSentimentSection(lines: seq<Line>, a: Analysis, breakdown: seq<Entry>) returns (out: seq<Line>)
    ensures out == lines + SentimentSection(a, breakdown)
  {
    out := lines + [Text(""), Text(""), Text(SentimentHeading)];
    out := out + [Text(Repeat('-', Width))];
    out := out + [OverallSentiment(a.overallSentiment, a.sentimentConfidence), Text("")];
    out := out + [Text("Sentiment Breakdown:")];
    out := PushScoreLines(out, breakdown);
  }

  method PushIntentSection(lines: seq<Line>, a: Analysis, secondary: Option<seq<Json>>, intents: seq<Entry>)
    returns (out: seq<Line>)
    ensures out == lines + IntentSection(a, secondary, intents)
  {
    out := lines + [Text(""), Text(""), Text(IntentHeading)];
    out := out + [Text(Repeat('-', Width))];
    out := out + [PrimaryIntent(a.primaryIntent, a.intentConfidence)];
    if secondary.Some? {
      out := out + [SecondaryIntents(secondary.value)];
    }
    out := out + [Text(""), Text("Intent Scores:")];
    out := PushScoreLines(out, intents);
  }

  method PushSummarySection(lines: seq<Line>, a: Analysis, topics: Option<seq<Json>>) returns (out: seq<Line>)
    ensures out == lines + SummarySection(a, topics)
  {
    out := lines + [Text(""), Text(""), Text(SummaryHeading)];
    out := out + [Text(Repeat('-', Width))];
    out := out + [ContentType(a.contentType), Text("")];
    out := out + [Summary(a.summary), Text("")];
    if topics.Some? {
      out := out + [KeyTopics(topics.value)];
    }
  }

  /** The lines before the intent section. */
  function LeadingSections(a: Analysis, score: Json -> real): seq<Line>
    requires !ReportThrows(a)
  {
    Header() + EmotionSection(a, SortByScore(Entries(a.emotionScores), score))
    + SentimentSection(a, Entries(a.sentimentBreakdown))
  }

  /** A report that does not throw is the leading sections followed by the
      intent and summary sections. */
  lemma ReportParts(a: Analysis, score: Json -> real)
    requires !ReportThrows(a)
    ensures Report(a, score).Ok?
    ensures Report(a, score).value
         == LeadingSections(a, score)
            + IntentSection(a, ListToJoin(a.secondaryIntents, "analysis.secondary_intents").value,
                            SortByScore(Entries(a.intentScores), score))
            + SummarySection(a, ListToJoin(a.keyTopics, "analysis.key_topics").value)
  {
  }

  /** The title banner opens the report and the four section headings follow
      in a fixed order, each underlined by a rule. */
  lemma SectionsInOrder(a: Analysis, score: Json -> real) returns (e: nat, s: nat, i: nat, c: nat)
    requires Report(a, score).Ok?
    ensures var lines := Report(a, score).value;
      e < s < i < c < |lines| - 1
      && lines[0] == Text(Repeat('=', Width)) && lines[1] == Text(Title) && lines[2] == lines[0]
      && lines[e] == Text(EmotionHeading) && lines[s] == Text(SentimentHeading)
      && lines[i] == Text(IntentHeading) && lines[c] == Text(SummaryHeading)
      && lines[e + 1] == lines[s + 1] == lines[i + 1] == lines[c + 1] == Text(Repeat('-', Width))
  {
    ReportParts(a, score);
    var em := EmotionSection(a, SortByScore(Entries(a.emotionScores), score));
    var se := SentimentSection(a, Entries(a.sentimentBreakdown));
    var it := IntentSection(a, ListToJoin(a.secondaryIntents, "analysis.secondary_intents").value,
                            SortByScore(Entries(a.intentScores), score));
    var su := SummarySection(a, ListToJoin(a.keyTopics, "analysis.key_topics").value);
    e, s, i, c := Layout(Report(a, score).value, Header(), em, se, it, su);
  }

  /** The positions of the banner and headings in a report made of a header
      and four sections, each section starting with its heading and rule
      (after two blank lines, except the first). */
  lemma Layout(lines: seq<Line>, h: seq<Line>, em: seq<Line>, se: seq<Line>, it: seq<Line>, su: seq<Line>)
    returns (e: nat, s: nat, i: nat, c: nat)
    requires lines == h + em + se + it + su
    requires h == Header()
    requires |em| >= 2 && em[0] == Text(EmotionHeading) && em[1] == Text(Repeat('-', Width))
    requires |se| >= 4 && se[2] == Text(SentimentHeading) && se[3] == Text(Repeat('-', Width))
    requires |it| >= 4 && it[2] == Text(IntentHeading) && it[3] == Text(Repeat('-', Width))
    requires |su| >= 4 && su[2] == Text(SummaryHeading) && su[3] == Text(Repeat('-', Width))
    ensures e < s < i < c < |lines| - 1
      && lines[0] == Text(Repeat('=', Width)) && lines[1] == Text(Title) && lines[2] == lines[0]
      && lines[e] == Text(EmotionHeading) && lines[s] == Text(SentimentHeading)
      && lines[i] == Text(IntentHeading) && lines[c] == Text(SummaryHeading)
      && lines[e + 1] == lines[s + 1] == lines[i + 1] == lines[c + 1] == Text(Repeat('-', Width))
  {
    e := |h|;
    s := |h| + |em| + 2;
    i := |h| + |em| + |se| + 2;
    c := |h| + |em| + |se| + |it| + 2;
    InPart(h, em, se, it, su, 0, 0);
    InPart(h, em, se, it, su, 0, 1);
    InPart(h, em, se, it, su, 0, 2);
    InPart(h, em, se, it, su, 1, 0);
    InPart(h, em, se, it, su, 1, 1);
    InPart(h, em, se, it, su, 2, 2);
    InPart(h, em, se, it, su, 2, 3);
    InPart(h, em, se, it, su, 3, 2);
    InPart(h, em, se, it, su, 3, 3);
    InPart(h, em, se, it, su, 4, 2);
    InPart(h, em, se, it, su, 4, 3);
  }

  /** Element `j` of part `k` of a five-part concatenation. */
  lemma InPart(p0: seq<Line>, p1: seq<Line>, p2: seq<Line>, p3: seq<Line>, p4: seq<Line>, k: nat, j: nat)
    requires k < 5
    requires j < |[p0, p1, p2, p3, p4][k]|
    ensures var start := |p0| * (if k > 0 then 1 else 0) + |p1| * (if k > 1 then 1 else 0)
                       + |p2| * (if k > 2 then 1 else 0) + |p3| * (if k > 3 then 1 else 0);
      start + j < |p0 + p1 + p2 + p3 + p4|
      && (p0 + p1 + p2 + p3 + p4)[start + j] == [p0, p1, p2, p3, p4][k][j]
  {
  }

  /** The emotion scores are listed right under their label, one line per
      entry of the map, in non-increasing score order, and followed by a blank
      line; an empty map lists nothing. */
  lemma EmotionScoresListed(a: Analysis, score: Json -> real) returns (k: nat)
    requires Report(a, score).Ok?
    ensures ListedAt(Report(a, score).value, k, "Emotion Scores:", SortByScore(Entries(a.emotionScores), score))
    ensures var sorted := SortByScore(Entries(a.emotionScores), score);
      |sorted| == |Entries(a.emotionScores)|
      && NonIncreasing(sorted, score) && multiset(sorted) == multiset(Entries(a.emotionScores))
  {
    var sorted := SortByScore(Entries(a.emotionScores), score);
    var rest := EmotionParts(a, score);
    k := EmotionListedIn(Report(a, score).value, a, sorted, rest);
  }

  /** In lines made of the header, an emotion section and a rest opening with
      a blank line, the emotion scores are listed after their caption. */
  lemma EmotionListedIn(lines: seq<Line>, a: Analysis, sorted: seq<Entry>, rest: seq<Line>) returns (k: nat)
    requires lines == Header() + EmotionSection(a, sorted) + rest
    requires rest != [] && rest[0] == Text("")
    ensures ListedAt(lines, k, "Emotion Scores:", sorted)
  {
    k := ListedBefore(lines, Header(), EmotionSection(a, sorted), rest, sorted, "Emotion Scores:");
  }

  /** A report that does not throw is the header, the emotion section, and
      the rest, which opens with a blank line. */
  lemma EmotionParts(a: Analysis, score: Json -> real) returns (rest: seq<Line>)
    requires Report(a, score).Ok?
    ensures Report(a, score).value == Header() + EmotionSection(a, SortByScore(Entries(a.emotionScores), score)) + rest
    ensures rest != [] && rest[0] == Text("")
  {
    ReportParts(a, score);
    rest := SentimentSection(a, Entries(a.sentimentBreakdown))
      + IntentSection(a, ListToJoin(a.secondaryIntents, "analysis.secondary_intents").value,
                      SortByScore(Entries(a.intentScores), score))
      + SummarySection(a, ListToJoin(a.keyTopics, "analysis.key_topics").value);
    Regroup(Header(), EmotionSection(a, SortByScore(Entries(a.emotionScores), score)),
            SentimentSection(a, Entries(a.sentimentBreakdown)),
            IntentSection(a, ListToJoin(a.secondaryIntents, "analysis.secondary_intents").value,
                          SortByScore(Entries(a.intentScores), score)),
            SummarySection(a, ListToJoin(a.keyTopics, "analysis.key_topics").value));
  }

  /** Concatenation regrouped after its second piece. */
  lemma Regroup(h: seq<Line>, e: seq<Line>, s: seq<Line>, i: seq<Line>, u: seq<Line>)
    ensures h + e + s + i + u == h + e + (s + i + u)
    ensures s != [] ==> (s + i + u)[0] == s[0]
  {
  }

  /** The intent scores are listed the same way under their label. */
  lemma IntentScoresListed(a: Analysis, score: Json -> real) returns (k: nat)
    requires Report(a, score).Ok?
    ensures ListedAt(Report(a, score).value, k, "Intent Scores:", SortByScore(Entries(a.intentScores), score))
    ensures var sorted := SortByScore(Entries(a.intentScores), score);
      |sorted| == |Entries(a.intentScores)|
      && NonIncreasing(sorted, score) && multiset(sorted) == multiset(Entries(a.intentScores))
  {
    ReportParts(a, score);
    var lead := LeadingSections(a, score);
    var secondary := ListToJoin(a.secondaryIntents, "analysis.secondary_intents").value;
    var sorted := SortByScore(Entries(a.intentScores), score);
    var intent := IntentSection(a, secondary, sorted);
    var summary := SummarySection(a, ListToJoin(a.keyTopics, "analysis.key_topics").value);
    k := ListedBefore(Report(a, score).value, lead, intent, summary, sorted, "Intent Scores:");
  }

  /** Line `k - 1` is the caption, the next lines are the score lines of
      `sorted`, one per entry in order, and a blank line follows them. */
  predicate ListedAt(lines: seq<Line>, k: int, caption: string, sorted: seq<Entry>) {
    0 < k && k + |sorted| < |lines|
    && lines[k - 1] == Text(caption)
    && lines[k..k + |sorted|] == ScoreLines(sorted)
    && lines[k + |sorted|] == Text("")
  }

  /** Score lines that end a section, after their label, are followed by the
      blank line that opens the next section. */
  lemma ListedBefore(lines: seq<Line>, lead: seq<Line>, section: seq<Line>, next: seq<Line>,
                     sorted: seq<Entry>, caption: string) returns (k: nat)
    requires lines == lead + section + next
    requires |section| > |sorted| && section[|section| - |sorted| - 1] == Text(caption)
    requires section[|section| - |sorted|..] == ScoreLines(sorted)
    requires next != [] && next[0] == Text("")
    ensures ListedAt(lines, k, caption, sorted)
  {
    k := |lead| + |section| - |sorted|;
    Block(lines, lead, section, next);
    BlockTail(lines, lead, section, next, |sorted|);
    Block(lines, lead + section, next, []);
  }

  /** Where a known piece sits inside a concatenation. */
  lemma Block(lines: seq<Line>, pre: seq<Line>, mid: seq<Line>, post: seq<Line>)
    requires lines == pre + mid + post
    ensures |pre| + |mid| <= |lines|
    ensures lines[|pre|..|pre| + |mid|] == mid
    ensures forall j :: 0 <= j < |mid| ==> lines[|pre| + j] == mid[j]
  {
  }

  /** Where the last `n` lines of a known piece sit inside a concatenation. */
  lemma BlockTail(lines: seq<Line>, pre: seq<Line>, mid: seq<Line>, post: seq<Line>, n: nat)
    requires lines == pre + mid + post && n <= |mid|
    ensures lines[|pre| + |mid| - n..|pre| + |mid|] == mid[|mid| - n..]
  {
    Block(lines, pre, mid, post);
  }

  /** The list a `Secondary Intents:` line (`topics` false) or a `Key Topics:`
      line (`topics` true) shows, if `l` is such a line. */
  function ListPayload(l: Line, topics: bool): Option<seq<Json>> {
    if topics && l.KeyTopics? then Some(l.topics)
    else if !topics && l.SecondaryIntents? then Some(l.intents)
    else None
  }

  /** The lists shown by the lines of one kind, in order. */
  function ListLines(ls: seq<Line>, topics: bool): seq<seq<Json>>
    decreases |ls|
  {
    if ls == [] then []
    else
      var p := ListPayload(ls[|ls| - 1], topics);
      ListLines(ls[..|ls| - 1], topics) + (if p.Some? then [p.value] else [])
  }

  lemma {:induction false} ListLinesAppend(x: seq<Line>, y: seq<Line>, topics: bool)
    ensures ListLines(x + y, topics) == ListLines(x, topics) + ListLines(y, topics)
    decreases |y|
  {
    if y == [] {
      assert x + y == x;
    } else {
      var y' := y[..|y| - 1];
      assert (x + y)[..|x + y| - 1] == x + y';
      ListLinesAppend(x, y', topics);
    }
  }

  /** No line of `ls` shows a list. */
  predicate Plain(ls: seq<Line>) {
    forall i :: 0 <= i < |ls| ==> !ls[i].SecondaryIntents? && !ls[i].KeyTopics?
  }

  lemma {:induction false} PlainNoListLines(ls: seq<Line>, topics: bool)
    requires Plain(ls)
    ensures ListLines(ls, topics) == []
    decreases |ls|
  {
    if ls != [] {
      PlainNoListLines(ls[..|ls| - 1], topics);
    }
  }

  lemma ListLinesSingle(l: Line, topics: bool)
    ensures ListLines([l], topics) == if ListPayload(l, topics).Some? then [ListPayload(l, topics).value] else []
  {
    assert [l][..0] == [];
  }

  /** Plain lines followed by an optional part show that part's lists. */
  lemma ListLinesAfterPlain(before: seq<Line>, mid: seq<Line>, topics: bool)
    requires Plain(before)
    ensures ListLines(before + mid, topics) == ListLines(mid, topics)
  {
    ListLinesAppend(before, mid, topics);
    PlainNoListLines(before, topics);
  }

  /** Plain lines, an optional part and plain lines show that part's lists. */
  lemma ListLinesBetweenPlain(before: seq<Line>, mid: seq<Line>, after: seq<Line>, topics: bool)
    requires Plain(before) && Plain(after)
    ensures ListLines(before + mid + after, topics) == ListLines(mid, topics)
  {
    ListLinesAfterPlain(before, mid, topics);
    ListLinesAppend(before + mid, after, topics);
    PlainNoListLines(after, topics);
  }

  /** The list a part holding at most one line shows. */
  lemma ListLinesOptional(o: Option<seq<Json>>, topics: bool)
    ensures ListLines(if o.Some? then [SecondaryIntents(o.value)] else [], topics)
         == if o.Some? && !topics then [o.value] else []
    ensures ListLines(if o.Some? then [KeyTopics(o.value)] else [], topics)
         == if o.Some? && topics then [o.value] else []
  {
    if o.Some? {
      ListLinesSingle(SecondaryIntents(o.value), topics);
      ListLinesSingle(KeyTopics(o.value), topics);
    }
  }

  lemma NoListsInHeaderEmotionSentiment(a: Analysis, emotions: seq<Entry>, breakdown: seq<Entry>, topics: bool)
    ensures ListLines(Header() + EmotionSection(a, emotions) + SentimentSection(a, breakdown), topics) == []
  {
    var ls := Header() + EmotionSection(a, emotions) + SentimentSection(a, breakdown);
    assert Plain(ls);
    PlainNoListLines(ls, topics);
  }

  lemma IntentSectionLists(a: Analysis, secondary: Option<seq<Json>>, intents: seq<Entry>, topics: bool)
    ensures ListLines(IntentSection(a, secondary, intents), topics)
         == if secondary.Some? && !topics then [secondary.value] else []
  {
    var opening := [Text(""), Text(""), Text(IntentHeading), Text(Repeat('-', Width)),
                    PrimaryIntent(a.primaryIntent, a.intentConfidence)];
    var tail := [Text(""), Text("Intent Scores:")] + ScoreLines(intents);
    var s2 := if secondary.Some? then [SecondaryIntents(secondary.value)] else [];
    assert Plain(opening) && Plain(tail);
    assert IntentSection(a, secondary, intents) == opening + s2 + tail;
    ListLinesBetweenPlain(opening, s2, tail, topics);
    ListLinesOptional(secondary, topics);
  }

  lemma SummarySectionLists(a: Analysis, topicList: Option<seq<Json>>, topics: bool)
    ensures ListLines(SummarySection(a, topicList), topics)
         == if topicList.Some? && topics then [topicList.value] else []
  {
    var opening := [Text(""), Text(""), Text(SummaryHeading), Text(Repeat('-', Width)),
                    ContentType(a.contentType), Text(""), Summary(a.summary), Text("")];
    assert Plain(opening);
    ListLinesAfterPlain(opening, if topicList.Some? then [KeyTopics(topicList.value)] else [], topics);
    ListLinesOptional(topicList, topics);
  }

  /** A report that does not throw shows a `Secondary Intents:` line exactly
      when the analysis's secondary intents have a truthy length, and then
      just one, listing the array's items; the same holds for `Key Topics:`
      and the key topics. */
  lemma OptionalListLines(a: Analysis, score: Json -> real)
    requires Report(a, score).Ok?
    ensures ListLines(Report(a, score).value, false)
         == if HasLength(a.secondaryIntents) then [a.secondaryIntents.items] else []
    ensures ListLines(Report(a, score).value, true)
         == if HasLength(a.keyTopics) then [a.keyTopics.items] else []
  {
    ReportParts(a, score);
    var secondary := ListToJoin(a.secondaryIntents, "analysis.secondary_intents").value;
    var topicList := ListToJoin(a.keyTopics, "analysis.key_topics").value;
    var intents := SortByScore(Entries(a.intentScores), score);
    NoListsInHeaderEmotionSentiment(a, SortByScore(Entries(a.emotionScores), score), Entries(a.sentimentBreakdown), false);
    NoListsInHeaderEmotionSentiment(a, SortByScore(Entries(a.emotionScores), score), Entries(a.sentimentBreakdown), true);
    IntentSectionLists(a, secondary, intents, false);
    IntentSectionLists(a, secondary, intents, true);
    SummarySectionLists(a, topicList, false);
    SummarySectionLists(a, topicList, true);
    ListLinesOfThree(Report(a, score).value, LeadingSections(a, score), IntentSection(a, secondary, intents),
                     SummarySection(a, topicList), false);
    ListLinesOfThree(Report(a, score).value, LeadingSections(a, score), IntentSection(a, secondary, intents),
                     SummarySection(a, topicList), true);
  }

  lemma ListLinesOfThree(lines: seq<Line>, lead: seq<Line>, it: seq<Line>, su: seq<Line>, topics: bool)
    requires lines == lead + it + su
    requires ListLines(lead, topics) == []
    ensures ListLines(lines, topics) == ListLines(it, topics) + ListLines(su, topics)
  {
    ListLinesAppend(lead + it, su, topics);
    ListLinesAppend(lead, it, topics);
    assert ListLines(lead + it, topics) == ListLines(it, topics);
  }

  /** Once an analysis has been defaulted, its report throws only for a
      secondary-intents or key-topics value with a truthy length that is
      not an array. */
  lemma DefaultedReportThrowsOnlyOnLists(data: Json, analysed: string, score: Json -> real)
    requires NormalizeAnalysis(data, analysed).Ok?
    ensures var a := NormalizeAnalysis(data, analysed).value;
      Report(a, score).Err?
      <==> (HasLength(a.secondaryIntents) && !a.secondaryIntents.JArr?)
           || (HasLength(a.keyTopics) && !a.keyTopics.JArr?)
  {
  }

  /** A reply that lacks only its emotion scores gets `{}` for them, and the
      report's "Emotion Scores:" label is followed directly by a blank line. */
  lemma MissingEmotionScoresListNothing(data: Json, analysed: string, score: Json -> real) returns (k: nat)
    requires data != JNull && Prop(data, "emotion_scores").None?
    requires Report(NormalizeAnalysis(data, analysed).value, score).Ok?
    ensures NormalizeAnalysis(data, analysed).value.emotionScores == EmptyObject
    ensures var lines := Report(NormalizeAnalysis(data, analysed).value, score).value;
      0 < k < |lines| && lines[k - 1] == Text("Emotion Scores:") && lines[k] == Text("")
  {
    OnlyMissingFieldsReplaced(data, analysed, EmotionScoresKey);
    var a := NormalizeAnalysis(data, analysed).value;
    assert Entries(a.emotionScores) == [];
    k := EmotionScoresListed(a, score);
  }
}

=== FILE: sorting.dfy ===
/**
 * The ordering the report applies to a score map's entries:
 * `Object.entries(m).sort((a, b) => Number(b[1]) - Number(a[1]))`, a stable
 * sort (as `Array.prototype.sort` is required to be) into non-increasing
 * score order.  `score` stands for `Number(...)` of an entry's value.
 */
module Sorting {
  import opened JsValues

  /** One `[key, value]` pair of `Object.entries`. */
  type Entry = (string, Json)

  /** Scores never increase along `s`. */
  predicate NonIncreasing(s: seq<Entry>, score: Json -> real) {
    forall i, j :: 0 <= i < j < |s| ==> score(s[i].1) >= score(s[j].1)
  }

  /** The entries of `s` whose score is `v`, in their order in `s`. */
  function WithScore(s: seq<Entry>, score: Json -> real, v: real): seq<Entry> {
    if s == [] then []
    else WithScore(s[..|s| - 1], score, v) + (if score(s[|s| - 1].1) == v then [s[|s| - 1]] else [])
  }

  /** Where `x` goes among sorted entries, looking from `i`: before the first
      entry that scores strictly less, so after every entry that scores the same. */
  function InsertionPoint(t: seq<Entry>, x: Entry, score: Json -> real, i: nat): (k: nat)
    requires i <= |t|
    ensures i <= k <= |t|
    ensures forall j :: i <= j < k ==> score(t[j].1) >= score(x.1)
    ensures k < |t| ==> score(t[k].1) < score(x.1)
    decreases |t| - i
  {
    if i < |t| && score(t[i].1) >= score(x.1) then InsertionPoint(t, x, score, i + 1) else i
  }

  /** `x` inserted into `t` at its insertion point. */
  function Insert(x: Entry, t: seq<Entry>, score: Json -> real): seq<Entry> {
    var k := InsertionPoint(t, x, score, 0);
    t[..k] + [x] + t[k..]
  }

  /** The first `n` entries of `s`, sorted by inserting them one after another. */
  function SortedPrefix(s: seq<Entry>, n: nat, score: Json -> real): seq<Entry>
    requires n <= |s|
  {
    if n == 0 then [] else Insert(s[n - 1], SortedPrefix(s, n - 1, score), score)
  }

  /** The entries of `s` in non-increasing score order, ties kept in their order in `s`. */
  function SortByScore(s: seq<Entry>, score: Json -> real): (r: seq<Entry>)
    ensures |r| == |s|
    ensures NonIncreasing(r, score)
    ensures multiset(r) == multiset(s)
    ensures forall v :: WithScore(r, score, v) == WithScore(s, score, v)
  {
    SortedPrefixCorrect(s, |s|, score);
    assert s[..|s|] == s;
    assert forall v :: WithScore(SortedPrefix(s, |s|, score), score, v) == WithScore(s, score, v) by {
      forall v
        ensures WithScore(SortedPrefix(s, |s|, score), score, v) == WithScore(s, score, v)
      {
        SortedPrefixStable(s, |s|, score, v);
      }
    }
    SortedPrefix(s, |s|, score)
  }

  /** Inserting into a sorted sequence keeps it sorted and adds exactly `x`. */
  lemma InsertCorrect(x: Entry, t: seq<Entry>, score: Json -> real)
    requires NonIncreasing(t, score)
    ensures NonIncreasing(Insert(x, t, score), score)
    ensures multiset(Insert(x, t, score)) == multiset(t) + multiset{x}
    ensures |Insert(x, t, score)| == |t| + 1
  {
    var k := InsertionPoint(t, x, score, 0);
    InsertSorted(x, t, score, k);
    InsertAtCounts(x, t, k);
  }

  /** Putting `x` anywhere adds exactly one `x`. */
  lemma InsertAtCounts(x: Entry, t: seq<Entry>, k: nat)
    requires k <= |t|
    ensures multiset(t[..k] + [x] + t[k..]) == multiset(t) + multiset{x}
  {
    assert t == t[..k] + t[k..];
  }

  /** Past the insertion point every entry of a sorted sequence scores less than `x`. */
  lemma LowerAfterInsertionPoint(x: Entry, t: seq<Entry>, score: Json -> real)
    requires NonIncreasing(t, score)
    ensures forall j :: InsertionPoint(t, x, score, 0) <= j < |t| ==> score(t[j].1) < score(x.1)
  {
  }

  /** Putting `x` after the entries that score at least as much and before
      those that score less keeps the sequence sorted. */
  lemma InsertSorted(x: Entry, t: seq<Entry>, score: Json -> real, k: nat)
    requires NonIncreasing(t, score)
    requires k <= |t|
    requires forall j :: 0 <= j < k ==> score(t[j].1) >= score(x.1)
    requires k < |t| ==> score(t[k].1) < score(x.1)
    ensures NonIncreasing(t[..k] + [x] + t[k..], score)
  {
    var r := t[..k] + [x] + t[k..];
    assert forall i :: 0 <= i < k ==> r[i] == t[i];
    assert r[k] == x;
    assert forall i :: k < i < |r| ==> r[i] == t[i - 1];
    forall i, j | 0 <= i < j < |r|
      ensures score(r[i].1) >= score(r[j].1)
    {
      if j < k || i > k {
        assert score(t[if i < k then i else i - 1].1) >= score(t[if j < k then j else j - 1].1);
      } else if i < k && j > k {
        assert score(t[i].1) >= score(x.1) > score(t[k].1) >= score(t[j - 1].1);
      }
    }
  }

  /** Inserting `x` adds it to the end of its own score class and leaves
      every other class alone. */
  lemma InsertStable(x: Entry, t: seq<Entry>, score: Json -> real, v: real)
    requires NonIncreasing(t, score)
    ensures WithScore(Insert(x, t, score), score, v)
         == WithScore(t, score, v) + (if score(x.1) == v then [x] else [])
  {
    LowerAfterInsertionPoint(x, t, score);
    InsertAtStable(x, t, score, v, InsertionPoint(t, x, score, 0));
  }

  /** Putting `x` before a tail that scores less than it adds `x` to the end
      of its class. */
  lemma InsertAtStable(x: Entry, t: seq<Entry>, score: Json -> real, v: real, k: nat)
    requires k <= |t|
    requires forall j :: k <= j < |t| ==> score(t[j].1) < score(x.1)
    ensures WithScore(t[..k] + [x] + t[k..], score, v)
         == WithScore(t, score, v) + (if score(x.1) == v then [x] else [])
  {
    var lo, hi := t[..k], t[k..];
    assert t == lo + hi;
    WithScoreAppend(lo + [x], hi, score, v);
    WithScoreAppend(lo, [x], score, v);
    WithScoreAppend(lo, hi, score, v);
    WithScoreSingle(x, score, v);
    if score(x.1) == v {
      assert forall j :: 0 <= j < |hi| ==> hi[j] == t[k + j];
      WithScoreNone(hi, score, v);
    }
  }

  /** The class of one entry. */
  lemma WithScoreSingle(x: Entry, score: Json -> real, v: real)
    ensures WithScore([x], score, v) == if score(x.1) == v then [x] else []
  {
    assert [x][..0] == [];
  }

  /** Sorting the first `n` entries gives a sorted permutation of them. */
  lemma {:induction false} SortedPrefixCorrect(s: seq<Entry>, n: nat, score: Json -> real)
    requires n <= |s|
    ensures |SortedPrefix(s, n, score)| == n
    ensures NonIncreasing(SortedPrefix(s, n, score), score)
    ensures multiset(SortedPrefix(s, n, score)) == multiset(s[..n])
  {
    if n > 0 {
      var t := SortedPrefix(s, n - 1, score);
      var r := Insert(s[n - 1], t, score);
      assert SortedPrefix(s, n, score) == r;
      SortedPrefixCorrect(s, n - 1, score);
      InsertCorrect(s[n - 1], t, score);
      assert s[..n] == s[..n - 1] + [s[n - 1]];
    }
  }

  /** Sorting the first `n` entries keeps every score class in its order. */
  lemma {:induction false} SortedPrefixStable(s: seq<Entry>, n: nat, score: Json -> real, v: real)
    requires n <= |s|
    ensures WithScore(SortedPrefix(s, n, score), score, v) == WithScore(s[..n], score, v)
  {
    if n > 0 {
      var x := s[n - 1];
      SortedPrefixStep(s, n, score, v);
      SortedPrefixStable(s, n - 1, score, v);
      WithScoreSnoc(s[..n - 1], x, score, v);
      assert s[..n - 1] + [x] == s[..n];
    }
  }

  /** One insertion step of the sort adds the inserted entry to the end of its class. */
  lemma SortedPrefixStep(s: seq<Entry>, n: nat, score: Json -> real, v: real)
    requires 0 < n <= |s|
    ensures WithScore(SortedPrefix(s, n, score), score, v)
         == WithScore(SortedPrefix(s, n - 1, score), score, v) + if score(s[n - 1].1) == v then [s[n - 1]] else []
  {
    SortedPrefixCorrect(s, n - 1, score);
    InsertStable(s[n - 1], SortedPrefix(s, n - 1, score), score, v);
  }

  /** Appending one entry extends its class by it. */
  lemma WithScoreSnoc(a: seq<Entry>, x: Entry, score: Json -> real, v: real)
    ensures WithScore(a + [x], score, v) == WithScore(a, score, v) + if score(x.1) == v then [x] else []
  {
    assert (a + [x])[..|a|] == a;
  }

  /** Selecting a score class distributes over concatenation. */
  lemma {:induction false} WithScoreAppend(a: seq<Entry>, b: seq<Entry>, score: Json -> real, v: real)
    ensures WithScore(a + b, score, v) == WithScore(a, score, v) + WithScore(b, score, v)
    decreases |b|
  {
    if b != [] {
      var b' := b[..|b| - 1];
      assert (a + b)[..|a + b| - 1] == a + b';
      WithScoreAppend(a, b', score, v);
    } else {
      assert a + b == a;
    }
  }

  /** A class nobody belongs to is empty. */
  lemma {:induction false} WithScoreNone(s: seq<Entry>, score: Json -> real, v: real)
    requires forall j :: 0 <= j < |s| ==> score(s[j].1) != v
    ensures WithScore(s, score, v) == []
  {
    if s != [] {
      WithScoreNone(s[..|s| - 1], score, v);
    }
  }
}

=== FILE: transcription.dfy ===
/**
 * The normalisation `geminiTranscribe` applies to the parsed transcription
 * reply: the language code defaults to "en" and is trimmed and lower-cased,
 * the confidence defaults to 0.95 when missing, the original-language text
 * defaults to "" and is trimmed, and the English text falls back to the
 * original-language text.  Each `.trim()` throws when the value it is called
 * on is truthy but not a string, and reading a field of a `null` reply throws.
 */
module Transcription {
  import opened JsStrings
  import opened JsValues

  /** The normalised transcription. `languageConfidence` is the value before
      `Number(...)` coercion. */
  datatype Transcript = Transcript(
    detectedLanguage: string,
    languageConfidence: Json,
    rawTranscription: string,
    translatedTranscription: string)

  const DefaultLanguage := "en"
  const DefaultLanguageConfidence: Json := JNum(0.95)

  /** The TypeError thrown when `callee` is not a function. */
  function NotAFunction(callee: string): string {
    callee + " is not a function"
  }

  /** `x || d` followed by `.trim()`, where `d` is a string: `x` can be trimmed
      exactly when it is missing, falsy or a string. */
  predicate Trimmable(x: Option<Json>) {
    x.None? || !Truthy(x.value) || x.value.JStr?
  }

  /** `(x || d).trim()`: the error names the expression written in the source. */
  function OrTrim(x: Option<Json>, d: string, expr: string): (r: Result<string>)
    ensures r.Ok? <==> Trimmable(x)
    ensures r.Ok? ==> IsTrimmed(r.value)
    ensures r.Ok? && x.Some? && Truthy(x.value) ==> r.value == Trim(x.value.s)
    ensures r.Ok? && (x.None? || !Truthy(x.value)) ==> r.value == Trim(d)
  {
    var v := Or(x, JStr(d));
    if v.JStr? then Ok(Trim(v.s)) else Err(NotAFunction("(" + expr + ").trim"))
  }

  /** The four normalised fields of a parsed transcription reply, read in the
      order the source reads them. */
  function NormalizeTranscription(data: Json): (r: Result<Transcript>)
    ensures data == JNull ==> r == Err(NullReadError("detected_language"))
    ensures r.Ok? <==> (data != JNull
                        && Trimmable(Prop(data, "detected_language"))
                        && Trimmable(Prop(data, "raw_transcription"))
                        && Trimmable(Prop(data, "translated_transcription")))
    ensures r.Ok? ==> (IsTrimmed(r.value.detectedLanguage) && NoUpper(r.value.detectedLanguage)
                       && IsTrimmed(r.value.rawTranscription) && IsTrimmed(r.value.translatedTranscription))
    ensures r.Ok? ==> r.value.languageConfidence != JNull
  {
    if data == JNull then Err(NullReadError("detected_language"))
    else
      match OrTrim(Prop(data, "detected_language"), DefaultLanguage, "data.detected_language || \"en\"")
      case Err(m) => Err(m)
      case Ok(lang) =>
        var confidence := Coalesce(Prop(data, "language_confidence"), DefaultLanguageConfidence);
        match OrTrim(Prop(data, "raw_transcription"), "", "data.raw_transcription || \"\"")
        case Err(m) => Err(m)
        case Ok(raw) =>
          match OrTrim(Prop(data, "translated_transcription"), raw, "data.translated_transcription || raw_transcription")
          case Err(m) => Err(m)
          case Ok(translated) =>
            LowerKeepsTrimmed(lang);
            ToLowerNoUpper(lang);
            Ok(Transcript(ToLower(lang), confidence, raw, translated))
  }

  /** A missing or empty English text is replaced by the original-language text. */
  lemma TranslationFallsBackToRaw(data: Json)
    requires NormalizeTranscription(data).Ok?
    requires var t := Prop(data, "translated_transcription"); t.None? || !Truthy(t.value)
    ensures NormalizeTranscription(data).value.translatedTranscription
         == NormalizeTranscription(data).value.rawTranscription
  {
    var raw := NormalizeTranscription(data).value.rawTranscription;
    assert IsTrimmed(raw);
  }

  /** A missing or empty language code reads as "en". */
  lemma LanguageDefaultsToEnglish(data: Json)
    requires NormalizeTranscription(data).Ok?
    requires var l := Prop(data, "detected_language"); l.None? || !Truthy(l.value)
    ensures NormalizeTranscription(data).value.detectedLanguage == DefaultLanguage
  {
    DefaultLanguageNormal();
  }

  /** "en" is already trimmed and lower case. */
  lemma DefaultLanguageNormal()
    ensures ToLower(Trim(DefaultLanguage)) == DefaultLanguage
  {
    assert IsTrimmed(DefaultLanguage);
    assert NoUpper(DefaultLanguage);
    ToLowerNoUpper(DefaultLanguage);
  }

  /** The confidence is replaced only when it is missing or `null`: any other
      value, even a falsy one such as 0 or "", is kept. */
  lemma ConfidenceDefaultsOnlyWhenMissing(data: Json)
    requires NormalizeTranscription(data).Ok?
    ensures var c := Prop(data, "language_confidence");
      NormalizeTranscription(data).value.languageConfidence
        == if c.Some? && c.value != JNull then c.value else DefaultLanguageConfidence
  {
  }

  /** A reply whose three text fields are non-empty strings keeps them, trimmed
      (the language code also lower-cased). */
  lemma StringFieldsKept(data: Json, lang: string, raw: string, translated: string)
    requires data.JObj?
    requires Prop(data, "detected_language") == Some(JStr(lang)) && lang != []
    requires Prop(data, "raw_transcription") == Some(JStr(raw)) && raw != []
    requires Prop(data, "translated_transcription") == Some(JStr(translated)) && translated != []
    ensures NormalizeTranscription(data).Ok?
    ensures NormalizeTranscription(data).value.detectedLanguage == ToLower(Trim(lang))
    ensures NormalizeTranscription(data).value.rawTranscription == Trim(raw)
    ensures NormalizeTranscription(data).value.translatedTranscription == Trim(translated)
  {
    assert Truthy(JStr(lang)) && Truthy(JStr(raw)) && Truthy(JStr(translated));
  }

  /** A non-empty language code is kept, trimmed and lower-cased, whatever the
      other fields hold. */
  lemma LanguageKept(data: Json, lang: string)
    requires NormalizeTranscription(data).Ok?
    requires Prop(data, "detected_language") == Some(JStr(lang)) && lang != []
    ensures NormalizeTranscription(data).value.detectedLanguage == ToLower(Trim(lang))
  {
    assert Truthy(JStr(lang));
  }

  /** A non-empty original-language text is kept, trimmed. */
  lemma RawKept(data: Json, raw: string)
    requires NormalizeTranscription(data).Ok?
    requires Prop(data, "raw_transcription") == Some(JStr(raw)) && raw != []
    ensures NormalizeTranscription(data).value.rawTranscription == Trim(raw)
  {
    assert Truthy(JStr(raw));
  }

  /** A missing or falsy original-language text reads as "". */
  lemma RawDefaultsToEmpty(data: Json)
    requires NormalizeTranscription(data).Ok?
    requires var r := Prop(data, "raw_transcription"); r.None? || !Truthy(r.value)
    ensures NormalizeTranscription(data).value.rawTranscription == ""
  {
    assert IsTrimmed("");
  }

  /** A non-empty English text is kept, trimmed, whatever the original-language
      text is. */
  lemma TranslatedKept(data: Json, translated: string)
    requires NormalizeTranscription(data).Ok?
    requires Prop(data, "translated_transcription") == Some(JStr(translated)) && translated != []
    ensures NormalizeTranscription(data).value.translatedTranscription == Trim(translated)
  {
    assert Truthy(JStr(translated));
  }

  /** A reply with no fields at all (`{}`, what an unreadable reply becomes)
      normalises to English with confidence 0.95 and empty texts. */
  lemma EmptyReplyDefaults()
    ensures NormalizeTranscription(EmptyObject) == Ok(Transcript(DefaultLanguage, DefaultLanguageConfidence, "", ""))
  {
    DefaultLanguageNormal();
    assert IsTrimmed("");
  }

  /** A truthy value that is not a string, in any of the three text fields,
      makes the normalisation throw. */
  lemma NonStringTextThrows(data: Json, k: string)
    requires data != JNull
    requires k in {"detected_language", "raw_transcription", "translated_transcription"}
    requires var v := Prop(data, k); v.Some? && Truthy(v.value) && !v.value.JStr?
    ensures NormalizeTranscription(data).Err?
  {
  }
}
